=== FILE: README.md ===
# Item-wise TDS for Purchase Invoices, and the TDS report

This project models the two core pieces of the `bharat_compliance` Frappe app.
TDS stands for tax deducted at source.

The first piece is the Purchase Invoice override.
It withholds tax per item category instead of once per invoice.
The model covers these steps:

- Items are grouped by their tax withholding category, and the base net amounts are summed per category.
- Each category with settings for the company gets a tax amount.
- That tax is set off against earlier advance payments, greedily and in order.
- The resulting tax rows are merged into the invoice's tax table, one row per withholding account.
- Newly appended rows that carry no tax are pruned.
- The per-category decision of `get_tax_amount` and the credit and threshold logic of `get_tds_amount` are modelled. The threshold checks, the tax-on-excess adjustment and the lower deduction certificate are included.

The second piece is the "TDS Report for Bharat" script report.
The model covers:

- filter validation;
- the map from withholding account to its category;
- grouping of GL entries by voucher, and of Journal Entry accounts by parent;
- the per-document figures gathered by `get_doc_info`;
- the rules that turn one GL entry into one report row: tax amount, section code, rate, total amount and bill details (the total follows the corrected reading of line 77 of tds_report_for_bharat.py described under "## Findings");
- the final stable sort by section code.

Database reads, the host ERP's helpers and the clock are not modelled as code.
Database results are inputs: `LedgerFacts`, `Environment`, lists of `SourceDoc`, `GlEntry`, `WithholdingAccount` and `JeAccountRow`, and `ReportContext`.
Host helpers are function-valued fields of `TaxWithholding.Host`. These are `get_deducted_tax`, `is_valid_certificate`, `get_lower_deduction_amount`, `normal_round` and `get_tax_row_for_tds`.
Python's insertion-ordered dictionaries are sequences of key/value pairs built by the same fold the source uses (`Grouping.GroupBy`).
Each such fold is proved equal to an independent reference: the keys in first-appearance order, and the members of each key.
Amounts are `real`, so `flt` rounding is not modelled.
A Python "falsy" string (None or empty) is the empty string.

Modules, in dependency order:

- `Wrappers`: Option and Result.
- `Money`: sums over sequences.
- `Grouping`: ordered dictionaries of lists.
- `TextOrder`: Python string order and a stable sort.
- `AdvanceAllocation`: `allocate_advance_tds`.
- `TaxWithholding`: `get_tax_amount` and `get_tds_amount`.
- `AccountMerge`: the account merge and pruning of `custom_set_tax_withholding`.
- `ItemWiseTds`: the invoice operations.
- `ReportDocs`: filters, the account map, `get_doc_info` and the Journal Entry party map.
- `TdsReport`: `get_gle_map` and `get_result`.

## Model

| member | source | states |
|---|---|---|
| ItemWiseTds.Validate | bharat_compliance/overrides/purchase_invoice.py:21-27 | The details table is always emptied first. Without item-wise TDS nothing else changes. With it, at most one detail per category is rebuilt, and none when TDS is off or no item has a category. |
| ItemWiseTds.SetTaxWithholding | bharat_compliance/overrides/purchase_invoice.py:29-101 | The invoice is unchanged when TDS is not applied. When no item has a category, the invoice keeps its category if one is set, and otherwise only gets the supplier's default category filled in. When some item has a category, the invoice category is cleared. Existing details, advance rows and voucher rows stay as prefixes, the tax table never shrinks, and items and supplier are untouched. |
| ItemWiseTds.CategoryTotalsMatchReference | bharat_compliance/overrides/purchase_invoice.py:37-47 | There is one total per item category, in first-appearance order. Each total is the sum of the base net amounts of exactly the items in that category. No total has an empty category. |
| ItemWiseTds.CategoryTotalsEmpty | bharat_compliance/overrides/purchase_invoice.py:37-49 | There are no totals exactly when no item has a category. That is the case where the method returns early. |
| ItemWiseTds.UncategorizedItemsIgnored | bharat_compliance/overrides/purchase_invoice.py:38-47 | Items without a category do not affect the totals. |
| ItemWiseTds.CategoryStep | bharat_compliance/overrides/purchase_invoice.py:130-159 | A category yields nothing exactly when it has no settings for the company. Otherwise its detail records the category and its net total. The withheld tax is the tax `get_tax_amount` computes for the category's settings, ledger facts and net total. The advance rows and the account row's remaining tax are the set-off of that tax over the same advances (lines 104-127), so the withheld tax equals what the advances absorbed plus what stays on the account row. The vouchers are `get_tax_amount`'s voucher-wise amounts, and the row gets the invoice's cost center. |
| ItemWiseTds.BookCategories | bharat_compliance/overrides/purchase_invoice.py:52-68 | There is one detail per account row, and no more of them than there are categories. |
| ItemWiseTds.DetailsFollowCategories | bharat_compliance/overrides/purchase_invoice.py:53-64 | Detail rows follow the categories that have settings, in dictionary order, and skip the others. |
| ItemWiseTds.DetailsComeFromTotals | bharat_compliance/overrides/purchase_invoice.py:53-64 | Each detail pairs a category with that category's own net total. |
| ItemWiseTds.BookingConservesTax | bharat_compliance/overrides/purchase_invoice.py:59-68 | Summed over all categories, the tax recorded as withheld equals the tax set off against advances plus the tax on the category account rows. |
| ItemWiseTds.ExistingTaxRowsBooked | bharat_compliance/overrides/purchase_invoice.py:70-75 | Each pre-existing tax row keeps its place. A row whose account received category tax becomes that account's first category row, carrying the account's total. |
| AdvanceAllocation.AllocateOne | bharat_compliance/overrides/purchase_invoice.py:105-116 | One advance splits the remaining tax into what it absorbs and what is left, and nothing is lost. With non-negative inputs, both parts are bounded by the pending amount and the remaining tax. |
| AdvanceAllocation.Allocate | bharat_compliance/overrides/purchase_invoice.py:104-127 | Exactly one advance-tax row is appended per advance. |
| AdvanceAllocation.AllocationRowsFollowAdvances | bharat_compliance/overrides/purchase_invoice.py:118-127 | Row i names advance i's payment entry, detail row and account head. |
| AdvanceAllocation.AllocationConservesTax | bharat_compliance/overrides/purchase_invoice.py:104-116 | The tax left on the category row plus all allocated amounts equals the tax before allocation. |
| AdvanceAllocation.AllocationBounds | bharat_compliance/overrides/purchase_invoice.py:104-116 | With non-negative tax and pending amounts, no advance gets more than it has pending. The tax left lies between nothing and the original tax. |
| AdvanceAllocation.AllocateSplits | bharat_compliance/overrides/purchase_invoice.py:105-116 | Allocating over two runs of advances is the same as allocating over the first run and then over the second with what is left. |
| AdvanceAllocation.NothingLeftAllocatesNothing | bharat_compliance/overrides/purchase_invoice.py:111-116 | When every pending amount is non-negative and there is no tax, every advance is allocated zero and nothing remains. |
| AdvanceAllocation.ZeroRemainderStaysZero | bharat_compliance/overrides/purchase_invoice.py:108-116 | When every pending amount is non-negative, once the tax is used up every later advance is allocated zero. |
| AdvanceAllocation.AllocationIsGreedy | bharat_compliance/overrides/purchase_invoice.py:104-116 | Advance i receives the smaller of its pending amount and the tax the earlier advances left over. |
| TaxWithholding.TaxAmount | bharat_compliance/overrides/purchase_invoice.py:161-209 | A party that is not a Supplier is taxed zero, before rounding. Once tax was deducted in the period, the voucher-wise amounts are dropped, and with no valid certificate the tax is the rate on the current net total. Otherwise the threshold computation decides. Set-off advances are returned only for Purchase Invoices. |
| TaxWithholding.TdsAmount | bharat_compliance/overrides/purchase_invoice.py:403-455 | No tax is due before a threshold is breached. Without a valid certificate, the tax is the rate on the invoice's net total when the credit, adjusted for the excess, is positive, and zero otherwise. |
| TaxWithholding.SupplierCreditDecomposes | bharat_compliance/overrides/purchase_invoice.py:351-402 | The cumulative credit is the sum of: earlier invoice totals, journal credits minus debits, this invoice, and Pay payments minus payments of any other type. |
| TaxWithholding.NoThresholdsNoTds | bharat_compliance/overrides/purchase_invoice.py:403-416 | A category with neither a single nor a cumulative threshold never withholds on this path. |
| TaxWithholding.ExcessNotReachedNoTds | bharat_compliance/overrides/purchase_invoice.py:417-453 | With tax on the excess, no valid certificate, and the cumulative threshold met by the supplier's credit, nothing is due while the excess net total is at most the cumulative threshold. |
| TaxWithholding.TdsBounded | bharat_compliance/overrides/purchase_invoice.py:448-453 | Without a certificate, and with non-negative rate and net total, the tax lies between zero and the rate applied to the net total. |
| TaxWithholding.DeductedTaxIgnoresThresholds | bharat_compliance/overrides/purchase_invoice.py:185-202 | Once tax was deducted in the period and no valid certificate applies, changing the thresholds, the excess flag, the journal lines or the payments leaves the tax equal to the tax computed from the original settings, provided the host still reports deducted tax for the changed settings. |
| AccountMerge.MergedIsBooked | bharat_compliance/overrides/purchase_invoice.py:66-68 | The row built for an account is its first category row, with the tax replaced by the sum over all rows for that account. |
| AccountMerge.UpdateRowIsBooking | bharat_compliance/overrides/purchase_invoice.py:70-74 | An existing tax row becomes its account's booking when the account received category tax. Otherwise it is unchanged. |
| AccountMerge.PruneMembers | bharat_compliance/overrides/purchase_invoice.py:92-99 | A row survives pruning exactly when it carries tax or its account was already in the table. |
| AccountMerge.PruneDistinct | bharat_compliance/overrides/purchase_invoice.py:92-99 | Pruning a table whose accounts are distinct leaves them distinct. |
| AccountMerge.MergeShape | bharat_compliance/overrides/purchase_invoice.py:70-99 | The merged table is the updated existing rows followed by the appended rows that survive pruning. Pruning never removes an existing row. |
| AccountMerge.MergeKeepsExistingRows | bharat_compliance/overrides/purchase_invoice.py:70-75 | The table never shrinks, and each existing row is either kept or replaced by its account's booking. |
| AccountMerge.AppendedAreNewBookings | bharat_compliance/overrides/purchase_invoice.py:76-99 | Every appended row is the booking of an account not already in the table, and it carries nonzero tax. |
| AccountMerge.AppendedDistinct | bharat_compliance/overrides/purchase_invoice.py:76-80 | Appended rows have pairwise distinct accounts. |
| AccountMerge.NewAccountsAppended | bharat_compliance/overrides/purchase_invoice.py:76-99 | Every new account whose summed tax is nonzero gets its booking appended. |
| ReportDocs.ValidateFilters | bharat_compliance/bharat_compliance/report/tds_report_for_bharat/tds_report_for_bharat.py:29-32 | The filters are rejected exactly when the from-date sorts strictly after the to-date in string order. Accepted filters are returned unchanged. |
| ReportDocs.TdsAccountMapMeaning | bharat_compliance/bharat_compliance/report/tds_report_for_bharat/tds_report_for_bharat.py:336-342 | An account is in the map exactly when some row names it. It maps to a category exactly when one row names it, and that category comes from its row. Otherwise it maps to None. |
| ReportDocs.TdsAccounts | bharat_compliance/bharat_compliance/report/tds_report_for_bharat/tds_report_for_bharat.py:379-384 | The report fails with the missing-accounts error exactly when the company has no withholding accounts. |
| ReportDocs.InvoiceTuples | bharat_compliance/bharat_compliance/report/tds_report_for_bharat/tds_report_for_bharat.py:462-481 | An item-wise invoice yields one tuple per details row, copying its category, net amount and withheld tax. Any other invoice yields exactly one tuple. Every tuple carries the invoice's bill number and date. |
| ReportDocs.OtherAmounts | bharat_compliance/bharat_compliance/report/tds_report_for_bharat/tds_report_for_bharat.py:482-487 | A Sales Invoice, Payment Entry or Journal Entry yields a non-empty list whose every element is the document's own amount: base total, base paid amount or total debit. |
| ReportDocs.DocInfoOfLastDoc | bharat_compliance/bharat_compliance/report/tds_report_for_bharat/tds_report_for_bharat.py:459-489 | The last document with a given key determines that key's category and its net-total entry. |
| ReportDocs.DocInfoKeys | bharat_compliance/bharat_compliance/report/tds_report_for_bharat/tds_report_for_bharat.py:459-489 | The maps hold exactly the keys of the documents given. Each entry comes from a document of the matching kind. |
| ReportDocs.JournalPartyIsFirstRow | bharat_compliance/bharat_compliance/report/tds_report_for_bharat/tds_report_for_bharat.py:414-429 | The party used for a Journal Entry is the party of its first account row, and none when it has no row. |
| Grouping.GroupByMatchesReference | bharat_compliance/bharat_compliance/report/tds_report_for_bharat/tds_report_for_bharat.py:214-231 | The voucher map has one group per voucher, in first-appearance order. Each group holds that voucher's entries in their original order. |
| Grouping.EveryElementInExactlyOneGroup | bharat_compliance/bharat_compliance/report/tds_report_for_bharat/tds_report_for_bharat.py:225-229 | Every GL entry lands in the group of its own voucher, and that group is unique. |
| Grouping.GroupByIsPermutation | bharat_compliance/bharat_compliance/report/tds_report_for_bharat/tds_report_for_bharat.py:225-229 | Concatenating the groups gives back the entries as a multiset. |
| TdsReport.EntryPartyRule | bharat_compliance/bharat_compliance/report/tds_report_for_bharat/tds_report_for_bharat.py:45-52 | An entry is reported under its party, else its "against" account; a journal entry with party rows is reported under the party of the first of those rows instead. |
| TdsReport.EntryRow | bharat_compliance/bharat_compliance/report/tds_report_for_bharat/tds_report_for_bharat.py:54-112 | An entry produces a row exactly when its account is a withholding account and its credit differs from its debit. The row's tax is credit minus debit, and it records the voucher name, type and posting date. |
| TdsReport.ResultIsSortedPermutation | bharat_compliance/bharat_compliance/report/tds_report_for_bharat/tds_report_for_bharat.py:37-190 | The result is sorted by section code and holds exactly the rows of the individual entries. Rows with equal section codes keep their voucher-map order. |
| TdsReport.GetResult | bharat_compliance/bharat_compliance/report/tds_report_for_bharat/tds_report_for_bharat.py:190 | The report rows come out ordered by section code. |
| TdsReport.ResultRowsPostTax | bharat_compliance/bharat_compliance/report/tds_report_for_bharat/tds_report_for_bharat.py:54-188 | Every reported row comes from a GL entry on a withholding account and carries nonzero tax. |
| TdsReport.EveryTaxEntryReported | bharat_compliance/bharat_compliance/report/tds_report_for_bharat/tds_report_for_bharat.py:54-188 | Every GL entry on a withholding account with credit different from debit is reported. |
| TdsReport.NoMatchingTupleKeepsFigures | bharat_compliance/bharat_compliance/report/tds_report_for_bharat/tds_report_for_bharat.py:70-75 | When no tuple's withheld tax equals the entry's tax, the loop leaves the category, rate, total and bill details as they were. |
| TdsReport.LastMatchingTupleWins | bharat_compliance/bharat_compliance/report/tds_report_for_bharat/tds_report_for_bharat.py:70-75 | The loop ends with the last tuple whose withheld tax equals the entry's tax. That tuple supplies category, rate, total, bill number and bill date. |
| TdsReport.InvoiceRowFromLastMatchingTuple | bharat_compliance/bharat_compliance/report/tds_report_for_bharat/tds_report_for_bharat.py:70-75 | A Purchase Invoice row takes its section, total and bill details from the last tuple whose withheld tax matches. |
| TdsReport.SingleCategoryAccountSetsSection | bharat_compliance/bharat_compliance/report/tds_report_for_bharat/tds_report_for_bharat.py:54-65 | For documents other than Purchase Invoices, an account that belongs to exactly one category gives the row that category as section code, with its rate. |
| TdsReport.SharedAccountUsesVoucherCategory | bharat_compliance/bharat_compliance/report/tds_report_for_bharat/tds_report_for_bharat.py:57-60 | Outside Purchase Invoices with net-total figures, an entry on an account shared by several categories takes the category recorded on its voucher as section code. |
| TdsReport.PartyDefaultIsLastResort | bharat_compliance/bharat_compliance/report/tds_report_for_bharat/tds_report_for_bharat.py:57-63 | With a shared account and no category on the voucher, the section code is the party's default category. |
| TdsReport.JournalTotalCapped | bharat_compliance/bharat_compliance/report/tds_report_for_bharat/tds_report_for_bharat.py:66-69 | A Journal Entry with a rate gets the tax back-calculated through the rate as its total, capped at the entry's total debit. |
| TdsReport.NoNetTotalUsesCredit | bharat_compliance/bharat_compliance/report/tds_report_for_bharat/tds_report_for_bharat.py:78-79 | Without net-total figures, the total is the entry's credit and there are no bill details. |
| TdsReport.OtherTotalIsDocumentAmount | bharat_compliance/bharat_compliance/report/tds_report_for_bharat/tds_report_for_bharat.py:76-77 | The corrected total for a Sales Invoice, a Payment Entry, or a Journal Entry without rate is the document's own amount. |
| TdsReport.TotalAmountIsAListAsWritten | bharat_compliance/bharat_compliance/report/tds_report_for_bharat/tds_report_for_bharat.py:76-77 | As written, a Sales Invoice with base total 1000 reports the list [1000] as its total amount, not a number. |
| TdsReport.AsWrittenTotalIsNeverANumber | bharat_compliance/bharat_compliance/report/tds_report_for_bharat/tds_report_for_bharat.py:76-77 | As written, every Sales Invoice, Payment Entry or Journal Entry total taken from line 77 is a list, never a number; its first element is the corrected amount. |

## Left out

- Database reads are inputs, not code. This covers `get_invoice_vouchers`, `get_advance_vouchers`, `get_taxes_deducted_on_advances_allocated`, `get_limit_consumed`, `get_tax_withholding_details`, the party and PAN lookups of `get_item_tax_withholding_details`, the party type from `get_party_details` (the `Environment`'s party type), the lower deduction certificate from `get_lower_deduction_certificate` (lines 182-184; the `LedgerFacts` certificate), `get_party_pan_map`, `get_tax_rate_map`, the GL query, and the document filters and doctype routing of `get_tds_docs_query`/`get_tds_docs`.
- Host helpers are opaque function fields of `Host`, and their own logic is not modelled: `get_deducted_tax`, `is_valid_certificate`, `get_lower_deduction_amount`, `normal_round`, `get_tax_row_for_tds`. The result of `get_cost_center` is a field of the invoice. `get_tax_row_for_tds` supplies the account head and description of the tax row; the model puts the tax amount it is given on that row, as the host helper does.
- The host's `validate` and `calculate_taxes_and_totals`, and user messages (`msgprint`), are side effects outside the model.
- The address and formatting columns of report rows (lines 114-186), `get_columns`, `execute`, and the choice between a `pan` and a `tax_id` column name are presentation only. They are left out.
- Party fields (PAN, name, display name, entity type) are resolved before the report logic runs. The model receives them through `PartyInfo`, keyed by party, and the supplier/customer field-name switch is folded into that lookup.
- `flt` and `cint` rounding: amounts are exact reals.
- Python's None and "" are one value, the empty string.
- Existing tax rows keep only the fields the merge reads or writes: account head, tax amount, description and cost center.
- hooks.py, installation, and the tax withholding settings doctype are out of scope.
- ItemWiseTds.SetTaxWithholding: `tax_withheld_vouchers` gets the voucher-wise amounts of the last category in the loop only, as the source does. The model states that existing rows are kept, but does not describe the appended rows beyond that.
- TaxWithholding.TdsAmount: with a valid certificate, the tax is whatever the host's lower-deduction helper returns. The contract says nothing about that value.
- TdsReport.EntryRow: for a Sales Invoice, a Payment Entry, or a Journal Entry without rate, the row's total is the document's amount (`TdsReport.OtherTotal`), not the whole list that line 77 of tds_report_for_bharat.py assigns as written; the as-written value is modelled separately, see "## Findings".
- ReportDocs.ValidateFilters: dates are compared as ISO strings, in lexicographic order, which is how the source compares them.

## Findings

| source | as written | input that shows it | evidently intended | confidence | as-written member | corrected member |
|---|---|---|---|---|---|---|
| bharat_compliance/bharat_compliance/report/tds_report_for_bharat/tds_report_for_bharat.py:76-77 | For a Sales Invoice, a Payment Entry, or a Journal Entry without rate, `total_amount` becomes the whole list held for the document | A Sales Invoice "SINV-1" with base total 1000 reports `[1000]` as its total amount | The total should be the document's amount, the list's first element, as line 69 uses for Journal Entries | medium, not executed | TdsReport.OtherTotalAsWritten | TdsReport.OtherTotal |

=== FILE: account_merge.dfy ===
/**
 * Booking the per-category withholding rows on the invoice's taxes table
 * (lines 66-80 of `custom_set_tax_withholding`) and dropping the appended
 * rows that came out at zero (lines 92-99).
 *
 * The per-account dictionary `tax_withholding_details` is `GroupBy` over the
 * category rows keyed by account head: its `tax_rows` are the group and its
 * `amount` is the group's sum of tax amounts.
 */
module AccountMerge {
  import opened Wrappers
  import opened Money
  import opened Grouping
  import opened TaxWithholding

  function HeadOf(r: TaxRow): string {
    r.accountHead
  }

  function TaxOf(r: TaxRow): real {
    r.taxAmount
  }

  /** Reference: the total tax the category rows put on `account`. */
  function AccountSum(rows: seq<TaxRow>, account: string): real
    decreases |rows|
  {
    if |rows| == 0 then 0.0
    else
      var r := rows[|rows| - 1];
      AccountSum(rows[..|rows| - 1], account) + (if r.accountHead == account then r.taxAmount else 0.0)
  }

  /** The row booked for an account: the first category row with the account's summed amount. */
  function MergedRow(group: seq<TaxRow>): TaxRow
    requires |group| > 0
  {
    group[0].(taxAmount := SumBy(group, TaxOf))
  }

  /** An existing taxes row after the merge: replaced by the merged row of its account, if any. */
  function UpdateRow(d: TaxRow, categoryRows: seq<TaxRow>): TaxRow {
    var groups := GroupBy(categoryRows, HeadOf);
    GroupByNonEmpty(categoryRows, HeadOf);
    match Lookup(groups, d.accountHead)
    case Some(group) =>
      LookupFound(groups, d.accountHead);
      MergedRow(group)
    case None => d
  }

  function UpdateExisting(taxes: seq<TaxRow>, categoryRows: seq<TaxRow>): seq<TaxRow> {
    seq(|taxes|, i requires 0 <= i < |taxes| => UpdateRow(taxes[i], categoryRows))
  }

  function HeadsOf(taxes: seq<TaxRow>): set<string> {
    set i | 0 <= i < |taxes| :: taxes[i].accountHead
  }

  /** Merged rows of the accounts the taxes table does not have yet, in dictionary order. */
  function NewAccountRows(groups: seq<(string, seq<TaxRow>)>, heads: set<string>): seq<TaxRow>
    requires NonEmptyGroups(groups)
    decreases |groups|
  {
    if |groups| == 0 then []
    else (if groups[0].0 in heads then [] else [MergedRow(groups[0].1)]) + NewAccountRows(groups[1..], heads)
  }

  /** Drops the rows with no tax whose account was not on the table before the merge. */
  function Prune(rows: seq<TaxRow>, heads: set<string>): seq<TaxRow>
    decreases |rows|
  {
    if |rows| == 0 then []
    else
      var keep := !(rows[0].taxAmount == 0.0 && rows[0].accountHead !in heads);
      (if keep then [rows[0]] else []) + Prune(rows[1..], heads)
  }

  /** The taxes table after the merge and the pruning. */
  function MergeTaxes(taxes: seq<TaxRow>, categoryRows: seq<TaxRow>): seq<TaxRow> {
    var groups := GroupBy(categoryRows, HeadOf);
    GroupByNonEmpty(categoryRows, HeadOf);
    var heads := HeadsOf(taxes);
    Prune(UpdateExisting(taxes, categoryRows) + NewAccountRows(groups, heads), heads)
  }

  // ---------------------------------------------------------------------
  // Reference and properties
  // ---------------------------------------------------------------------

  /** No account appears on two rows. */
  ghost predicate DistinctHeads(rows: seq<TaxRow>) {
    forall i, j :: 0 <= i < j < |rows| ==> rows[i].accountHead != rows[j].accountHead
  }

  /** Reference: the row an account should end up with — its earliest category row carrying the account's total. */
  function Booked(rows: seq<TaxRow>, account: string): Option<TaxRow> {
    match FirstWithKey(rows, HeadOf, account)
    case Some(f) => Some(f.(taxAmount := AccountSum(rows, account)))
    case None => None
  }

  lemma {:induction false} MembersSum(rows: seq<TaxRow>, account: string)
    ensures SumBy(Members(rows, HeadOf, account), TaxOf) == AccountSum(rows, account)
    decreases |rows|
  {
    if |rows| > 0 {
      var n := |rows| - 1;
      MembersSum(rows[..n], account);
      var tail := if HeadOf(rows[n]) == account then [rows[n]] else [];
      SumByAppend(Members(rows[..n], HeadOf, account), tail, TaxOf);
      assert SumBy(tail, TaxOf) == (if rows[n].accountHead == account then rows[n].taxAmount else 0.0) by {
        if tail != [] {
          assert tail[..0] == [];
        }
      }
    }
  }

  /** The dictionary's group for an account is what the reference books for it. */
  lemma MergedIsBooked(rows: seq<TaxRow>, i: int)
    requires 0 <= i < |GroupBy(rows, HeadOf)|
    ensures |GroupBy(rows, HeadOf)[i].1| > 0
    ensures Booked(rows, GroupBy(rows, HeadOf)[i].0) == Some(MergedRow(GroupBy(rows, HeadOf)[i].1))
  {
    GroupByNonEmpty(rows, HeadOf);
    GroupByMatchesReference(rows, HeadOf);
    var a := GroupBy(rows, HeadOf)[i].0;
    MembersStartWithFirst(rows, HeadOf, a);
    MembersSum(rows, a);
  }

  /** An account with no category row has no group. */
  lemma UnbookedHasNoGroup(rows: seq<TaxRow>, account: string)
    requires Booked(rows, account).None?
    ensures Lookup(GroupBy(rows, HeadOf), account) == None
  {
    LookupGroupBy(rows, HeadOf, account);
    MembersStartWithFirst(rows, HeadOf, account);
    if account in KeysInOrder(rows, HeadOf) {
      KeysInOrderMembership(rows, HeadOf, account);
      var j :| 0 <= j < |rows| && HeadOf(rows[j]) == account;
      ElementInOwnGroup(rows, HeadOf, j);
    }
  }

  /** Each existing row takes the booking of its account, or stays as it was when its account got no tax. */
  lemma UpdateRowIsBooking(d: TaxRow, rows: seq<TaxRow>)
    ensures UpdateRow(d, rows) == Booked(rows, d.accountHead).GetOr(d)
    ensures UpdateRow(d, rows).accountHead == d.accountHead
  {
    GroupByNonEmpty(rows, HeadOf);
    var groups := GroupBy(rows, HeadOf);
    var a := d.accountHead;
    match Lookup(groups, a)
    case Some(group) =>
      LookupFound(groups, a);
      GroupByMatchesReference(rows, HeadOf);
      KeysInOrderDistinct(rows, HeadOf);
      var i :| 0 <= i < |groups| && groups[i].0 == a && groups[i].1 == group;
      MergedIsBooked(rows, i);
      MembersStartWithFirst(rows, HeadOf, a);
      MembersHaveKey(rows, HeadOf, a);
      assert group[0] in group;
    case None =>
      LookupGroupBy(rows, HeadOf, a);
      MembersStartWithFirst(rows, HeadOf, a);
      if FirstWithKey(rows, HeadOf, a).Some? {
        MembersOfAbsentKeyContra(rows, a);
      }
  }

  lemma MembersOfAbsentKeyContra(rows: seq<TaxRow>, account: string)
    requires |Members(rows, HeadOf, account)| > 0
    ensures account in KeysInOrder(rows, HeadOf)
  {
    if account !in KeysInOrder(rows, HeadOf) {
      MembersOfAbsentKey(rows, HeadOf, account);
    }
  }

  lemma {:induction false} PruneAppend(a: seq<TaxRow>, b: seq<TaxRow>, heads: set<string>)
    ensures Prune(a + b, heads) == Prune(a, heads) + Prune(b, heads)
    decreases |a|
  {
    if |a| == 0 {
      assert a + b == b;
    } else {
      assert (a + b)[0] == a[0];
      assert (a + b)[1..] == a[1..] + b;
      PruneAppend(a[1..], b, heads);
    }
  }

  lemma {:induction false} PruneKeepsKnownHeads(a: seq<TaxRow>, heads: set<string>)
    requires forall i :: 0 <= i < |a| ==> a[i].accountHead in heads
    ensures Prune(a, heads) == a
    decreases |a|
  {
    if |a| > 0 {
      PruneKeepsKnownHeads(a[1..], heads);
    }
  }

  /** Pruning keeps exactly the rows that have tax or an account from before the merge. */
  lemma {:induction false} PruneMembers(rows: seq<TaxRow>, heads: set<string>)
    ensures forall x :: x in Prune(rows, heads) <==> x in rows && (x.taxAmount != 0.0 || x.accountHead in heads)
    decreases |rows|
  {
    if |rows| > 0 {
      PruneMembers(rows[1..], heads);
      assert rows == [rows[0]] + rows[1..];
    }
  }

  /** Pruning a table whose accounts are distinct leaves them distinct. */
  lemma {:induction false} PruneDistinct(rows: seq<TaxRow>, heads: set<string>)
    requires DistinctHeads(rows)
    ensures DistinctHeads(Prune(rows, heads))
    decreases |rows|
  {
    if |rows| > 0 {
      var rest := rows[1..];
      assert DistinctHeads(rest) by {
        forall i, j | 0 <= i < j < |rest|
          ensures rest[i].accountHead != rest[j].accountHead
        {
          assert rest[i] == rows[i + 1] && rest[j] == rows[j + 1];
        }
      }
      PruneDistinct(rest, heads);
      PruneMembers(rest, heads);
      var p := Prune(rows, heads);
      var tail := Prune(rest, heads);
      var first := if !(rows[0].taxAmount == 0.0 && rows[0].accountHead !in heads) then [rows[0]] else [];
      assert p == first + tail;
      forall i, j | 0 <= i < j < |p|
        ensures p[i].accountHead != p[j].accountHead
      {
        if |first| == 1 && i == 0 {
          assert p[j] == tail[j - 1];
          assert p[j] in rest;
          var m :| 0 <= m < |rest| && rest[m] == p[j];
          assert rows[m + 1] == p[j];
        } else {
          assert p[i] == tail[i - |first|] && p[j] == tail[j - |first|];
        }
      }
    }
  }

  lemma GroupsTail(groups: seq<(string, seq<TaxRow>)>)
    requires |groups| > 0
    requires NonEmptyGroups(groups) && WellKeyed(groups, HeadOf) && Distinct(KeysOfGroups(groups))
    ensures NonEmptyGroups(groups[1..]) && WellKeyed(groups[1..], HeadOf) && Distinct(KeysOfGroups(groups[1..]))
    ensures forall i :: 0 <= i < |groups[1..]| ==> groups[1..][i].0 != groups[0].0
  {
    var rest := groups[1..];
    forall i | 0 <= i < |rest| ensures |rest[i].1| > 0 { assert rest[i] == groups[i + 1]; }
    forall i, y | 0 <= i < |rest| && y in rest[i].1 ensures HeadOf(y) == rest[i].0 {
      assert rest[i] == groups[i + 1];
    }
    forall i, j | 0 <= i < j < |rest| ensures KeysOfGroups(rest)[i] != KeysOfGroups(rest)[j] {
      assert KeysOfGroups(groups)[i + 1] == rest[i].0;
      assert KeysOfGroups(groups)[j + 1] == rest[j].0;
    }
    forall i | 0 <= i < |rest| ensures rest[i].0 != groups[0].0 {
      assert KeysOfGroups(groups)[0] == groups[0].0;
      assert KeysOfGroups(groups)[i + 1] == rest[i].0;
    }
  }

  /** `NewAccountRows` yields exactly the merged rows of the groups whose account is new. */
  lemma {:induction false} NewAccountRowsMembers(groups: seq<(string, seq<TaxRow>)>, heads: set<string>)
    requires NonEmptyGroups(groups)
    ensures forall x :: x in NewAccountRows(groups, heads) <==>
      exists i :: 0 <= i < |groups| && groups[i].0 !in heads && x == MergedRow(groups[i].1)
    decreases |groups|
  {
    if |groups| > 0 {
      var rest := groups[1..];
      assert NonEmptyGroups(rest) by {
        forall i | 0 <= i < |rest| ensures |rest[i].1| > 0 { assert rest[i] == groups[i + 1]; }
      }
      NewAccountRowsMembers(rest, heads);
      var tail := NewAccountRows(rest, heads);
      forall x
        ensures x in NewAccountRows(groups, heads) <==>
          exists i :: 0 <= i < |groups| && groups[i].0 !in heads && x == MergedRow(groups[i].1)
      {
        if x in tail {
          var i :| 0 <= i < |rest| && rest[i].0 !in heads && x == MergedRow(rest[i].1);
          assert groups[i + 1] == rest[i];
        }
        if exists i :: 0 <= i < |groups| && groups[i].0 !in heads && x == MergedRow(groups[i].1) {
          var i :| 0 <= i < |groups| && groups[i].0 !in heads && x == MergedRow(groups[i].1);
          if i > 0 {
            assert groups[i] == rest[i - 1];
          }
        }
      }
    }
  }

  /** The merged row of a group carries the group's account. */
  lemma MergedRowHead(groups: seq<(string, seq<TaxRow>)>, i: int)
    requires NonEmptyGroups(groups) && WellKeyed(groups, HeadOf)
    requires 0 <= i < |groups|
    ensures MergedRow(groups[i].1).accountHead == groups[i].0
  {
    assert groups[i].1[0] in groups[i].1;
    assert HeadOf(groups[i].1[0]) == groups[i].0;
  }

  /** Only accounts of the dictionary are appended. */
  lemma {:induction false} NewAccountRowHead(groups: seq<(string, seq<TaxRow>)>, heads: set<string>, j: int)
    requires NonEmptyGroups(groups) && WellKeyed(groups, HeadOf) && Distinct(KeysOfGroups(groups))
    requires 0 <= j < |NewAccountRows(groups, heads)|
    ensures exists i :: 0 <= i < |groups| && NewAccountRows(groups, heads)[j].accountHead == groups[i].0
    decreases |groups|
  {
    var rest := groups[1..];
    var first := if groups[0].0 in heads then [] else [MergedRow(groups[0].1)];
    assert NewAccountRows(groups, heads) == first + NewAccountRows(rest, heads);
    if j < |first| {
      MergedRowHead(groups, 0);
    } else {
      GroupsTail(groups);
      NewAccountRowHead(rest, heads, j - |first|);
      var i :| 0 <= i < |rest| && NewAccountRows(rest, heads)[j - |first|].accountHead == rest[i].0;
      assert groups[i + 1] == rest[i];
    }
  }

  /** Each account is appended at most once. */
  lemma {:induction false} NewAccountRowsDistinct(groups: seq<(string, seq<TaxRow>)>, heads: set<string>)
    requires NonEmptyGroups(groups) && WellKeyed(groups, HeadOf) && Distinct(KeysOfGroups(groups))
    ensures DistinctHeads(NewAccountRows(groups, heads))
    decreases |groups|
  {
    if |groups| > 0 {
      var rest := groups[1..];
      GroupsTail(groups);
      NewAccountRowsDistinct(rest, heads);
      var r := NewAccountRows(groups, heads);
      var tail := NewAccountRows(rest, heads);
      var first := if groups[0].0 in heads then [] else [MergedRow(groups[0].1)];
      assert r == first + tail;
      forall i, j | 0 <= i < j < |r|
        ensures r[i].accountHead != r[j].accountHead
      {
        if |first| == 1 && i == 0 {
          MergedRowHead(groups, 0);
          NewAccountRowHead(rest, heads, j - 1);
        } else {
          assert r[i] == tail[i - |first|] && r[j] == tail[j - |first|];
        }
      }
    }
  }

  /** The rows of the merged table after the existing ones. */
  function AppendedRows(taxes: seq<TaxRow>, categoryRows: seq<TaxRow>): seq<TaxRow> {
    GroupByNonEmpty(categoryRows, HeadOf);
    Prune(NewAccountRows(GroupBy(categoryRows, HeadOf), HeadsOf(taxes)), HeadsOf(taxes))
  }

  /**
   * Existing rows are never pruned: the merged table is the updated existing
   * rows, one per existing row, followed by the appended rows.
   */
  lemma MergeShape(taxes: seq<TaxRow>, categoryRows: seq<TaxRow>)
    ensures MergeTaxes(taxes, categoryRows) == UpdateExisting(taxes, categoryRows) + AppendedRows(taxes, categoryRows)
  {
    GroupByNonEmpty(categoryRows, HeadOf);
    var heads := HeadsOf(taxes);
    var updated := UpdateExisting(taxes, categoryRows);
    forall i | 0 <= i < |updated|
      ensures updated[i].accountHead in heads
    {
      UpdateRowIsBooking(taxes[i], categoryRows);
    }
    PruneAppend(updated, NewAccountRows(GroupBy(categoryRows, HeadOf), heads), heads);
    PruneKeepsKnownHeads(updated, heads);
  }

  /**
   * Existing rows are never removed and keep their order: row i of the merged
   * table is existing row i, replaced by its account's booking when the
   * account received category tax, unchanged otherwise.
   */
  lemma MergeKeepsExistingRows(taxes: seq<TaxRow>, categoryRows: seq<TaxRow>)
    ensures |MergeTaxes(taxes, categoryRows)| >= |taxes|
    ensures forall i :: 0 <= i < |taxes| ==>
      MergeTaxes(taxes, categoryRows)[i] == Booked(categoryRows, taxes[i].accountHead).GetOr(taxes[i])
  {
    MergeShape(taxes, categoryRows);
    forall i | 0 <= i < |taxes|
      ensures UpdateExisting(taxes, categoryRows)[i] == Booked(categoryRows, taxes[i].accountHead).GetOr(taxes[i])
    {
      UpdateRowIsBooking(taxes[i], categoryRows);
    }
  }

  /** Every appended row is the booking of an account the table did not have, and carries tax. */
  lemma AppendedAreNewBookings(taxes: seq<TaxRow>, categoryRows: seq<TaxRow>, x: TaxRow)
    requires x in AppendedRows(taxes, categoryRows)
    ensures x.accountHead !in HeadsOf(taxes)
    ensures Booked(categoryRows, x.accountHead) == Some(x)
    ensures x.taxAmount != 0.0
  {
    GroupByNonEmpty(categoryRows, HeadOf);
    GroupByWellKeyed(categoryRows, HeadOf);
    var groups := GroupBy(categoryRows, HeadOf);
    var heads := HeadsOf(taxes);
    var added := NewAccountRows(groups, heads);
    PruneMembers(added, heads);
    assert x in added;
    NewAccountRowsMembers(groups, heads);
    var i :| 0 <= i < |groups| && groups[i].0 !in heads && x == MergedRow(groups[i].1);
    assert groups[i].1[0] in groups[i].1;
    assert HeadOf(groups[i].1[0]) == groups[i].0;
    MergedIsBooked(categoryRows, i);
  }

  /** No account is appended twice. */
  lemma AppendedDistinct(taxes: seq<TaxRow>, categoryRows: seq<TaxRow>)
    ensures DistinctHeads(AppendedRows(taxes, categoryRows))
  {
    GroupByNonEmpty(categoryRows, HeadOf);
    GroupByWellKeyed(categoryRows, HeadOf);
    var groups := GroupBy(categoryRows, HeadOf);
    assert Distinct(KeysOfGroups(groups)) by {
      GroupByMatchesReference(categoryRows, HeadOf);
      KeysInOrderDistinct(categoryRows, HeadOf);
    }
    var added := NewAccountRows(groups, HeadsOf(taxes));
    NewAccountRowsDistinct(groups, HeadsOf(taxes));
    PruneDistinct(added, HeadsOf(taxes));
  }

  /** Every account new to the table whose category total is nonzero is appended. */
  lemma NewAccountsAppended(taxes: seq<TaxRow>, categoryRows: seq<TaxRow>, a: string)
    requires a !in HeadsOf(taxes) && Booked(categoryRows, a).Some?
    requires AccountSum(categoryRows, a) != 0.0
    ensures Booked(categoryRows, a).value in AppendedRows(taxes, categoryRows)
  {
    GroupByNonEmpty(categoryRows, HeadOf);
    var groups := GroupBy(categoryRows, HeadOf);
    var heads := HeadsOf(taxes);
    MembersStartWithFirst(categoryRows, HeadOf, a);
    MembersOfAbsentKeyContra(categoryRows, a);
    GroupByMatchesReference(categoryRows, HeadOf);
    var ks := KeysInOrder(categoryRows, HeadOf);
    var i :| 0 <= i < |ks| && ks[i] == a;
    MergedIsBooked(categoryRows, i);
    NewAccountRowsMembers(groups, heads);
    PruneMembers(NewAccountRows(groups, heads), heads);
  }
}

=== FILE: allocation.dfy ===
/**
 * Greedy allocation of an invoice's withheld tax against tax already
 * deducted on advance payments (`allocate_advance_tds`).
 */
module AdvanceAllocation {
  import opened Money

  /** A row of tax deducted on an advance Payment Entry. */
  datatype AdvanceTax = AdvanceTax(
    parent: string,          // the Payment Entry
    name: string,            // the row inside it
    accountHead: string,
    taxAmount: real,
    allocatedAmount: real)   // already set off against earlier invoices

  /** The `advance_tax` row appended to the invoice for one advance. */
  datatype AdvanceTaxRow = AdvanceTaxRow(
    referenceType: string,
    referenceName: string,
    referenceDetail: string,
    accountHead: string,
    allocatedAmount: real)

  datatype Allocation = Allocation(remaining: real, rows: seq<AdvanceTaxRow>)

  const PaymentEntry := "Payment Entry"

  /** What is still open on an advance. */
  function Pending(a: AdvanceTax): real {
    a.taxAmount - a.allocatedAmount
  }

  function Allocated(row: AdvanceTaxRow): real {
    row.allocatedAmount
  }

  /** The row recording `amount` allocated against advance `a`. */
  function RowFor(a: AdvanceTax, amount: real): AdvanceTaxRow {
    AdvanceTaxRow(PaymentEntry, a.parent, a.name, a.accountHead, amount)
  }

  /**
   * One step of the loop: returns (remaining tax, amount allocated). The whole
   * pending amount is taken when the remaining tax covers it; otherwise a
   * nonzero remainder is used up; otherwise nothing is allocated.
   */
  function AllocateOne(remaining: real, a: AdvanceTax): (r: (real, real))
    ensures r.0 + r.1 == remaining
    ensures remaining >= 0.0 && Pending(a) >= 0.0 ==>
      0.0 <= r.1 <= Pending(a) && 0.0 <= r.0 <= remaining
  {
    var pending := Pending(a);
    if remaining >= pending then (remaining - pending, pending)
    else if remaining != 0.0 && remaining < pending then (0.0, remaining)
    else (remaining, 0.0)
  }

  /** Allocates `tax` against `advances` in order, one row per advance. */
  function Allocate(tax: real, advances: seq<AdvanceTax>): (r: Allocation)
    ensures |r.rows| == |advances|
    decreases |advances|
  {
    if |advances| == 0 then Allocation(tax, [])
    else
      var step := AllocateOne(tax, advances[0]);
      var rest := Allocate(step.0, advances[1..]);
      Allocation(rest.remaining, [RowFor(advances[0], step.1)] + rest.rows)
  }

  /** The tax left over after the first `i` advances have been served. */
  function RemainingBefore(tax: real, advances: seq<AdvanceTax>, i: nat): real
    requires i <= |advances|
  {
    Allocate(tax, advances[..i]).remaining
  }

  ghost predicate AllPendingNonNegative(advances: seq<AdvanceTax>) {
    forall i :: 0 <= i < |advances| ==> Pending(advances[i]) >= 0.0
  }

  function Min(a: real, b: real): real {
    if a <= b then a else b
  }

  // ---------------------------------------------------------------------
  // Properties
  // ---------------------------------------------------------------------

  /** Exactly one row is appended per advance, in input order, referencing that advance's Payment Entry row and account. */
  lemma {:induction false} AllocationRowsFollowAdvances(tax: real, advances: seq<AdvanceTax>)
    ensures var r := Allocate(tax, advances);
      forall i :: 0 <= i < |advances| ==> r.rows[i] == RowFor(advances[i], r.rows[i].allocatedAmount)
    decreases |advances|
  {
    if |advances| > 0 {
      var step := AllocateOne(tax, advances[0]);
      AllocationRowsFollowAdvances(step.0, advances[1..]);
      var r := Allocate(tax, advances);
      var rest := Allocate(step.0, advances[1..]);
      forall i | 0 <= i < |advances|
        ensures r.rows[i] == RowFor(advances[i], r.rows[i].allocatedAmount)
      {
        if i > 0 {
          assert r.rows[i] == rest.rows[i - 1];
          assert advances[1..][i - 1] == advances[i];
        }
      }
    }
  }

  /** Allocation conserves money: what is left plus what was allocated is the tax we started with. */
  lemma {:induction false} AllocationConservesTax(tax: real, advances: seq<AdvanceTax>)
    ensures Allocate(tax, advances).remaining + SumBy(Allocate(tax, advances).rows, Allocated) == tax
    decreases |advances|
  {
    if |advances| > 0 {
      var step := AllocateOne(tax, advances[0]);
      var rest := Allocate(step.0, advances[1..]);
      AllocationConservesTax(step.0, advances[1..]);
      SumByCons(RowFor(advances[0], step.1), rest.rows, Allocated);
    }
  }

  /**
   * With a non-negative tax and non-negative pending amounts, every advance
   * receives between nothing and its pending amount, and the remainder stays
   * between 0 and the tax.
   */
  lemma {:induction false} AllocationBounds(tax: real, advances: seq<AdvanceTax>)
    requires tax >= 0.0 && AllPendingNonNegative(advances)
    ensures var r := Allocate(tax, advances);
      forall i :: 0 <= i < |advances| ==> 0.0 <= r.rows[i].allocatedAmount <= Pending(advances[i])
    ensures 0.0 <= Allocate(tax, advances).remaining <= tax
    decreases |advances|
  {
    if |advances| > 0 {
      var step := AllocateOne(tax, advances[0]);
      AllocationBounds(step.0, advances[1..]);
      var r := Allocate(tax, advances);
      var rest := Allocate(step.0, advances[1..]);
      forall i | 0 <= i < |advances|
        ensures 0.0 <= r.rows[i].allocatedAmount <= Pending(advances[i])
      {
        if i > 0 {
          assert r.rows[i] == rest.rows[i - 1];
          assert advances[1..][i - 1] == advances[i];
        }
      }
    }
  }

  /** Allocating over a concatenation serves the first part, then the second with what is left. */
  lemma {:induction false} AllocateSplits(tax: real, a: seq<AdvanceTax>, b: seq<AdvanceTax>)
    ensures Allocate(tax, a + b)
         == Allocation(Allocate(Allocate(tax, a).remaining, b).remaining,
                       Allocate(tax, a).rows + Allocate(Allocate(tax, a).remaining, b).rows)
    decreases |a|
  {
    if |a| == 0 {
      assert a + b == b;
    } else {
      var step := AllocateOne(tax, a[0]);
      var ab := a + b;
      assert ab[0] == a[0];
      assert ab[1..] == a[1..] + b;
      AllocateSplits(step.0, a[1..], b);
      var restA := Allocate(step.0, a[1..]);
      var second := Allocate(restA.remaining, b);
      assert Allocate(tax, a) == Allocation(restA.remaining, [RowFor(a[0], step.1)] + restA.rows);
      assert Allocate(step.0, a[1..] + b) == Allocation(second.remaining, restA.rows + second.rows);
      assert [RowFor(a[0], step.1)] + (restA.rows + second.rows)
          == ([RowFor(a[0], step.1)] + restA.rows) + second.rows;
    }
  }

  /** Nothing left means nothing is allocated from then on. */
  lemma {:induction false} NothingLeftAllocatesNothing(advances: seq<AdvanceTax>)
    requires AllPendingNonNegative(advances)
    ensures var r := Allocate(0.0, advances);
      r.remaining == 0.0 && forall i :: 0 <= i < |advances| ==> r.rows[i].allocatedAmount == 0.0
    decreases |advances|
  {
    if |advances| > 0 {
      NothingLeftAllocatesNothing(advances[1..]);
      var r := Allocate(0.0, advances);
      var rest := Allocate(0.0, advances[1..]);
      forall i | 0 <= i < |advances|
        ensures r.rows[i].allocatedAmount == 0.0
      {
        if i > 0 {
          assert r.rows[i] == rest.rows[i - 1];
        }
      }
    }
  }

  /** Once the remainder has reached 0 every later advance is allocated 0. */
  lemma ZeroRemainderStaysZero(tax: real, advances: seq<AdvanceTax>, i: nat, j: nat)
    requires AllPendingNonNegative(advances)
    requires i <= j < |advances|
    requires RemainingBefore(tax, advances, i) == 0.0
    ensures Allocate(tax, advances).rows[j].allocatedAmount == 0.0
  {
    var a, b := advances[..i], advances[i..];
    assert advances == a + b;
    AllocateSplits(tax, a, b);
    assert AllPendingNonNegative(b) by {
      forall m | 0 <= m < |b| ensures Pending(b[m]) >= 0.0 {
        assert b[m] == advances[i + m];
      }
    }
    NothingLeftAllocatesNothing(b);
    assert Allocate(tax, advances).rows[j] == Allocate(0.0, b).rows[j - i];
  }

  /**
   * The allocation is greedy: each advance receives the smaller of its pending
   * amount and what is left after the advances before it, whatever the signs.
   */
  lemma {:induction false} AllocationIsGreedy(tax: real, advances: seq<AdvanceTax>, i: nat)
    requires i < |advances|
    ensures Allocate(tax, advances).rows[i].allocatedAmount
         == Min(Pending(advances[i]), RemainingBefore(tax, advances, i))
    decreases i
  {
    var step := AllocateOne(tax, advances[0]);
    if i == 0 {
      assert advances[..0] == [];
    } else {
      var tail := advances[1..];
      AllocationIsGreedy(step.0, tail, i - 1);
      assert tail[i - 1] == advances[i];
      assert advances[..i] == [advances[0]] + tail[..i - 1];
      assert advances[..i][0] == advances[0];
      assert advances[..i][1..] == tail[..i - 1];
      assert RemainingBefore(tax, advances, i) == RemainingBefore(step.0, tail, i - 1);
    }
  }
}

=== FILE: grouping.dfy ===
/**
 * Grouping a sequence by a key into an insertion-ordered dictionary of lists:
 * each element either opens a new entry for its key at the end, or is
 * appended to the list of the entry its key already has. A dictionary is a
 * sequence of (key, rows) pairs in first-insertion order.
 *
 * `GroupBy` is the fold the source performs; `KeysInOrder` and `Members` are
 * an independent reference (first-appearance keys, and the filter of the
 * input by key), and `GroupByMatchesReference` proves the two agree.
 */
module Grouping {
  import opened Wrappers

  /** Adds `x` under key `k`: appended to the group of `k` if present, else a new group at the end. */
  function AddTo<K(==), T>(g: seq<(K, seq<T>)>, k: K, x: T): seq<(K, seq<T>)>
    decreases |g|
  {
    if |g| == 0 then [(k, [x])]
    else if g[0].0 == k then [(k, g[0].1 + [x])] + g[1..]
    else [g[0]] + AddTo(g[1..], k, x)
  }

  /** The dictionary obtained by adding the elements of `xs` one by one, in order. */
  function GroupBy<K(==), T>(xs: seq<T>, key: T -> K): seq<(K, seq<T>)>
    decreases |xs|
  {
    if |xs| == 0 then []
    else AddTo(GroupBy(xs[..|xs| - 1], key), key(xs[|xs| - 1]), xs[|xs| - 1])
  }

  /** Reference: the distinct keys of `xs` in order of first appearance. */
  function KeysInOrder<K(==), T>(xs: seq<T>, key: T -> K): seq<K>
    decreases |xs|
  {
    if |xs| == 0 then []
    else
      var ks := KeysInOrder(xs[..|xs| - 1], key);
      if key(xs[|xs| - 1]) in ks then ks else ks + [key(xs[|xs| - 1])]
  }

  /** Reference: the elements of `xs` whose key is `k`, in input order. */
  function Members<K(==), T>(xs: seq<T>, key: T -> K, k: K): seq<T>
    decreases |xs|
  {
    if |xs| == 0 then []
    else Members(xs[..|xs| - 1], key, k) + (if key(xs[|xs| - 1]) == k then [xs[|xs| - 1]] else [])
  }

  /** The value stored under `k`, as `dict.get(k)`. */
  function Lookup<K(==), T>(g: seq<(K, seq<T>)>, k: K): Option<seq<T>>
    decreases |g|
  {
    if |g| == 0 then None
    else if g[0].0 == k then Some(g[0].1)
    else Lookup(g[1..], k)
  }

  /** All values of the dictionary, group after group. */
  function Flatten<K, T>(g: seq<(K, seq<T>)>): seq<T>
    decreases |g|
  {
    if |g| == 0 then [] else g[0].1 + Flatten(g[1..])
  }

  /** The results `f` yields, in order, skipping the elements it maps to None. */
  function Collect<T, R>(xs: seq<T>, f: T -> Option<R>): seq<R>
    decreases |xs|
  {
    if |xs| == 0 then []
    else (match f(xs[0]) case Some(r) => [r] case None => []) + Collect(xs[1..], f)
  }

  /** Reference: the earliest element of `xs` with key `k`, if any. */
  function FirstWithKey<K(==), T>(xs: seq<T>, key: T -> K, k: K): Option<T>
    decreases |xs|
  {
    if |xs| == 0 then None
    else
      var earlier := FirstWithKey(xs[..|xs| - 1], key, k);
      if earlier.Some? then earlier
      else if key(xs[|xs| - 1]) == k then Some(xs[|xs| - 1])
      else None
  }

  ghost predicate Distinct<K>(ks: seq<K>) {
    forall i, j :: 0 <= i < j < |ks| ==> ks[i] != ks[j]
  }

  // ---------------------------------------------------------------------
  // Facts about the reference
  // ---------------------------------------------------------------------

  lemma {:induction false} KeysInOrderDistinct<K, T>(xs: seq<T>, key: T -> K)
    ensures Distinct(KeysInOrder(xs, key))
    decreases |xs|
  {
    if |xs| > 0 {
      KeysInOrderDistinct(xs[..|xs| - 1], key);
    }
  }

  /** A key is listed exactly when some element carries it. */
  lemma {:induction false} KeysInOrderMembership<K, T>(xs: seq<T>, key: T -> K, k: K)
    ensures k in KeysInOrder(xs, key) <==> exists j :: 0 <= j < |xs| && key(xs[j]) == k
    decreases |xs|
  {
    if |xs| > 0 {
      var n := |xs| - 1;
      KeysInOrderMembership(xs[..n], key, k);
      if exists j :: 0 <= j < n && key(xs[..n][j]) == k {
        var j :| 0 <= j < n && key(xs[..n][j]) == k;
        assert xs[j] == xs[..n][j];
      }
      if exists j :: 0 <= j < |xs| && key(xs[j]) == k {
        var j :| 0 <= j < |xs| && key(xs[j]) == k;
        if j < n {
          assert xs[..n][j] == xs[j];
        }
      }
    }
  }

  /** Every member of the group of `k` carries key `k`. */
  lemma {:induction false} MembersHaveKey<K, T>(xs: seq<T>, key: T -> K, k: K)
    ensures forall y :: y in Members(xs, key, k) ==> key(y) == k
    decreases |xs|
  {
    if |xs| > 0 {
      MembersHaveKey(xs[..|xs| - 1], key, k);
    }
  }

  /** A key that never occurs has no members. */
  lemma {:induction false} MembersOfAbsentKey<K, T>(xs: seq<T>, key: T -> K, k: K)
    requires k !in KeysInOrder(xs, key)
    ensures Members(xs, key, k) == []
    decreases |xs|
  {
    if |xs| > 0 {
      var n := |xs| - 1;
      var ks := KeysInOrder(xs[..n], key);
      assert k !in ks;
      MembersOfAbsentKey(xs[..n], key, k);
    }
  }

  /** Every element is a member of the group of its own key. */
  lemma {:induction false} ElementInOwnGroup<K, T>(xs: seq<T>, key: T -> K, j: int)
    requires 0 <= j < |xs|
    ensures xs[j] in Members(xs, key, key(xs[j]))
    decreases |xs|
  {
    var n := |xs| - 1;
    if j < n {
      ElementInOwnGroup(xs[..n], key, j);
      assert xs[..n][j] == xs[j];
    }
  }

  // ---------------------------------------------------------------------
  // The fold agrees with the reference
  // ---------------------------------------------------------------------

  lemma {:induction false} AddToExisting<K, T>(g: seq<(K, seq<T>)>, k: K, x: T, i: int)
    requires 0 <= i < |g| && g[i].0 == k
    requires forall j :: 0 <= j < i ==> g[j].0 != k
    ensures AddTo(g, k, x) == g[i := (k, g[i].1 + [x])]
    decreases |g|
  {
    if i > 0 {
      AddToExisting(g[1..], k, x, i - 1);
    }
  }

  lemma {:induction false} AddToFresh<K, T>(g: seq<(K, seq<T>)>, k: K, x: T)
    requires forall j :: 0 <= j < |g| ==> g[j].0 != k
    ensures AddTo(g, k, x) == g + [(k, [x])]
    decreases |g|
  {
    if |g| > 0 {
      AddToFresh(g[1..], k, x);
    }
  }

  /** The fold builds exactly one group per distinct key, in first-appearance order, holding the input's elements of that key in input order. */
  lemma {:induction false} GroupByMatchesReference<K, T>(xs: seq<T>, key: T -> K)
    ensures |GroupBy(xs, key)| == |KeysInOrder(xs, key)|
    ensures forall i :: 0 <= i < |GroupBy(xs, key)| ==>
      GroupBy(xs, key)[i] == (KeysInOrder(xs, key)[i], Members(xs, key, KeysInOrder(xs, key)[i]))
    decreases |xs|
  {
    if |xs| > 0 {
      var n := |xs| - 1;
      var p, x := xs[..n], xs[n];
      var k := key(x);
      GroupByMatchesReference(p, key);
      KeysInOrderDistinct(p, key);
      var g', ks' := GroupBy(p, key), KeysInOrder(p, key);
      var g, ks := GroupBy(xs, key), KeysInOrder(xs, key);
      assert g == AddTo(g', k, x);
      if k in ks' {
        var i0 :| 0 <= i0 < |ks'| && ks'[i0] == k;
        AddToExisting(g', k, x, i0);
        assert ks == ks';
        forall i | 0 <= i < |g|
          ensures g[i] == (ks[i], Members(xs, key, ks[i]))
        {
          assert Members(xs, key, ks[i]) == Members(p, key, ks[i]) + (if k == ks[i] then [x] else []);
          assert g'[i] == (ks'[i], Members(p, key, ks'[i]));
          if i == i0 {
            assert g[i] == (k, g'[i0].1 + [x]);
            assert ks[i] == k;
            assert g[i].1 == Members(xs, key, ks[i]);
          } else {
            assert ks'[i] != k;
            assert g[i] == g'[i];
            assert ks[i] == ks'[i];
            assert g[i].1 == Members(xs, key, ks[i]);
          }
          assert g[i].0 == ks[i];
        }
      } else {
        AddToFresh(g', k, x);
        assert ks == ks' + [k];
        MembersOfAbsentKey(p, key, k);
        forall i | 0 <= i < |g|
          ensures g[i] == (ks[i], Members(xs, key, ks[i]))
        {
          assert Members(xs, key, ks[i]) == Members(p, key, ks[i]) + (if k == ks[i] then [x] else []);
          if i < |g'| {
            assert g'[i] == (ks'[i], Members(p, key, ks'[i]));
            assert ks'[i] != k;
            assert g[i] == g'[i];
            assert ks[i] == ks'[i];
            assert g[i].1 == Members(xs, key, ks[i]);
          } else {
            assert g[i] == (k, [x]);
            assert ks[i] == k;
            assert Members(p, key, k) == [];
            assert Members(xs, key, k) == [] + [x];
            assert g[i].1 == Members(xs, key, ks[i]);
          }
          assert g[i].0 == ks[i];
        }
      }
    }
  }

  /**
   * Every input element lies in the group of its key and in no other group,
   * and the groups' keys are distinct.
   */
  lemma EveryElementInExactlyOneGroup<K, T>(xs: seq<T>, key: T -> K, j: int)
    requires 0 <= j < |xs|
    ensures var g := GroupBy(xs, key);
      exists i :: 0 <= i < |g| && g[i].0 == key(xs[j]) && xs[j] in g[i].1
    ensures var g := GroupBy(xs, key);
      forall i :: 0 <= i < |g| && xs[j] in g[i].1 ==> g[i].0 == key(xs[j])
    ensures Distinct(KeysOfGroups(GroupBy(xs, key)))
  {
    var g, ks := GroupBy(xs, key), KeysInOrder(xs, key);
    GroupByMatchesReference(xs, key);
    KeysInOrderDistinct(xs, key);
    KeysInOrderMembership(xs, key, key(xs[j]));
    var i0 :| 0 <= i0 < |ks| && ks[i0] == key(xs[j]);
    ElementInOwnGroup(xs, key, j);
    assert g[i0].0 == key(xs[j]) && xs[j] in g[i0].1;
    forall i | 0 <= i < |g| && xs[j] in g[i].1
      ensures g[i].0 == key(xs[j])
    {
      MembersHaveKey(xs, key, ks[i]);
    }
  }

  function KeysOfGroups<K, T>(g: seq<(K, seq<T>)>): seq<K> {
    seq(|g|, i requires 0 <= i < |g| => g[i].0)
  }

  // ---------------------------------------------------------------------
  // Lookup and flattening
  // ---------------------------------------------------------------------

  lemma {:induction false} LookupAt<K, T>(g: seq<(K, seq<T>)>, k: K, i: int)
    requires 0 <= i < |g| && g[i].0 == k
    requires forall j :: 0 <= j < i ==> g[j].0 != k
    ensures Lookup(g, k) == Some(g[i].1)
    decreases |g|
  {
    if i > 0 {
      LookupAt(g[1..], k, i - 1);
    }
  }

  lemma {:induction false} LookupAbsent<K, T>(g: seq<(K, seq<T>)>, k: K)
    requires forall j :: 0 <= j < |g| ==> g[j].0 != k
    ensures Lookup(g, k) == None
    decreases |g|
  {
    if |g| > 0 {
      LookupAbsent(g[1..], k);
    }
  }

  /** Looking a key up in the grouped dictionary yields exactly that key's elements, in input order. */
  lemma LookupGroupBy<K, T>(xs: seq<T>, key: T -> K, k: K)
    ensures Lookup(GroupBy(xs, key), k) ==
      if k in KeysInOrder(xs, key) then Some(Members(xs, key, k)) else None
  {
    var g, ks := GroupBy(xs, key), KeysInOrder(xs, key);
    GroupByMatchesReference(xs, key);
    KeysInOrderDistinct(xs, key);
    if k in ks {
      var i :| 0 <= i < |ks| && ks[i] == k;
      LookupAt(g, k, i);
    } else {
      LookupAbsent(g, k);
    }
  }

  lemma {:induction false} CollectAppend<T, R>(a: seq<T>, b: seq<T>, f: T -> Option<R>)
    ensures Collect(a + b, f) == Collect(a, f) + Collect(b, f)
    decreases |a|
  {
    if |a| == 0 {
      assert a + b == b;
    } else {
      assert (a + b)[0] == a[0];
      assert (a + b)[1..] == a[1..] + b;
      CollectAppend(a[1..], b, f);
    }
  }

  lemma {:induction false} AddToCollect<K, T, R>(g: seq<(K, seq<T>)>, k: K, x: T, f: T -> Option<R>)
    ensures multiset(Collect(Flatten(AddTo(g, k, x)), f))
         == multiset(Collect(Flatten(g), f)) + multiset(Collect([x], f))
    decreases |g|
  {
    if |g| == 0 {
      assert Flatten(AddTo(g, k, x)) == [x];
    } else if g[0].0 == k {
      var r := AddTo(g, k, x);
      assert r[1..] == g[1..];
      assert Flatten(r) == (g[0].1 + [x]) + Flatten(g[1..]);
      CollectAppend(g[0].1 + [x], Flatten(g[1..]), f);
      CollectAppend(g[0].1, [x], f);
      CollectAppend(g[0].1, Flatten(g[1..]), f);
    } else {
      var r := AddTo(g, k, x);
      assert r[1..] == AddTo(g[1..], k, x);
      AddToCollect(g[1..], k, x, f);
      CollectAppend(g[0].1, Flatten(AddTo(g[1..], k, x)), f);
      CollectAppend(g[0].1, Flatten(g[1..]), f);
    }
  }

  /** Grouping only reorders: what `f` collects from the grouped elements is, as a multiset, what it collects from the input. */
  lemma {:induction false} CollectOverGroups<K, T, R>(xs: seq<T>, key: T -> K, f: T -> Option<R>)
    ensures multiset(Collect(Flatten(GroupBy(xs, key)), f)) == multiset(Collect(xs, f))
    decreases |xs|
  {
    if |xs| > 0 {
      var n := |xs| - 1;
      var init, last := xs[..n], xs[n];
      CollectOverGroups(init, key, f);
      assert GroupBy(xs, key) == AddTo(GroupBy(init, key), key(last), last);
      AddToCollect(GroupBy(init, key), key(last), last, f);
      assert xs == init + [last];
      CollectAppend(init, [last], f);
    }
  }

  lemma {:induction false} AddToFlatten<K, T>(g: seq<(K, seq<T>)>, k: K, x: T)
    ensures multiset(Flatten(AddTo(g, k, x))) == multiset(Flatten(g)) + multiset{x}
    decreases |g|
  {
    if |g| == 0 {
      assert Flatten(AddTo(g, k, x)) == [x];
    } else if g[0].0 == k {
      var r := AddTo(g, k, x);
      assert r[1..] == g[1..];
      assert Flatten(r) == (g[0].1 + [x]) + Flatten(g[1..]);
    } else {
      var r := AddTo(g, k, x);
      assert r[1..] == AddTo(g[1..], k, x);
      AddToFlatten(g[1..], k, x);
    }
  }

  /** Grouping neither loses nor duplicates an element. */
  lemma {:induction false} GroupByIsPermutation<K, T>(xs: seq<T>, key: T -> K)
    ensures multiset(Flatten(GroupBy(xs, key))) == multiset(xs)
    decreases |xs|
  {
    if |xs| > 0 {
      var n := |xs| - 1;
      var init := xs[..n];
      GroupByIsPermutation(init, key);
      AddToFlatten(GroupBy(init, key), key(xs[n]), xs[n]);
      assert xs == init + [xs[n]];
      assert multiset(xs) == multiset(init) + multiset{xs[n]};
    }
  }

  /** Every group holds only elements of its own key. */
  ghost predicate WellKeyed<K, T>(g: seq<(K, seq<T>)>, key: T -> K) {
    forall i, y :: 0 <= i < |g| && y in g[i].1 ==> key(y) == g[i].0
  }

  lemma GroupByWellKeyed<K, T>(xs: seq<T>, key: T -> K)
    ensures WellKeyed(GroupBy(xs, key), key)
  {
    var g, ks := GroupBy(xs, key), KeysInOrder(xs, key);
    GroupByMatchesReference(xs, key);
    forall i, y | 0 <= i < |g| && y in g[i].1
      ensures key(y) == g[i].0
    {
      MembersHaveKey(xs, key, ks[i]);
    }
  }

  ghost predicate NonEmptyGroups<K, T>(g: seq<(K, seq<T>)>) {
    forall i :: 0 <= i < |g| ==> |g[i].1| > 0
  }

  /** No group of the dictionary is empty. */
  lemma GroupByNonEmpty<K, T>(xs: seq<T>, key: T -> K)
    ensures NonEmptyGroups(GroupBy(xs, key))
  {
    var g, ks := GroupBy(xs, key), KeysInOrder(xs, key);
    GroupByMatchesReference(xs, key);
    forall i | 0 <= i < |g|
      ensures |g[i].1| > 0
    {
      KeysInOrderMembership(xs, key, ks[i]);
      var j :| 0 <= j < |xs| && key(xs[j]) == ks[i];
      ElementInOwnGroup(xs, key, j);
    }
  }

  /** A successful lookup returns the group stored under the key. */
  lemma {:induction false} LookupFound<K, T>(g: seq<(K, seq<T>)>, k: K)
    requires Lookup(g, k).Some?
    ensures exists i :: 0 <= i < |g| && g[i].0 == k && g[i].1 == Lookup(g, k).value
    decreases |g|
  {
    if g[0].0 != k {
      LookupFound(g[1..], k);
      var i :| 0 <= i < |g[1..]| && g[1..][i].0 == k && g[1..][i].1 == Lookup(g[1..], k).value;
      assert g[i + 1] == g[1..][i];
    }
  }

  /** A key has members exactly when it has a first element, and the group starts with it. */
  lemma {:induction false} MembersStartWithFirst<K, T>(xs: seq<T>, key: T -> K, k: K)
    ensures FirstWithKey(xs, key, k).Some? <==> |Members(xs, key, k)| > 0
    ensures |Members(xs, key, k)| > 0 ==> FirstWithKey(xs, key, k) == Some(Members(xs, key, k)[0])
    decreases |xs|
  {
    if |xs| > 0 {
      MembersStartWithFirst(xs[..|xs| - 1], key, k);
    }
  }

  /** Everything collected comes from some element. */
  lemma {:induction false} CollectMembers<T, R>(xs: seq<T>, f: T -> Option<R>, y: R)
    requires y in Collect(xs, f)
    ensures exists i :: 0 <= i < |xs| && f(xs[i]) == Some(y)
    decreases |xs|
  {
    var head := match f(xs[0]) case Some(r) => [r] case None => [];
    assert Collect(xs, f) == head + Collect(xs[1..], f);
    if y !in head {
      CollectMembers(xs[1..], f, y);
      var i :| 0 <= i < |xs[1..]| && f(xs[1..][i]) == Some(y);
      assert xs[i + 1] == xs[1..][i];
    }
  }
}

=== FILE: item_wise.dfy ===
/**
 * Item-wise TDS on a Purchase Invoice (`CustomPurchaseInvoice.validate` and
 * `custom_set_tax_withholding`): the items' net amounts are totalled per Tax
 * Withholding Category, tax is computed per category, set off against
 * advances, booked per account on the taxes table, and the voucher-wise
 * amounts of the last category are recorded.
 *
 * A string field holding "" stands for a missing (falsy) value.
 */
module ItemWiseTds {
  import opened Wrappers
  import opened Money
  import opened Grouping
  import opened AdvanceAllocation
  import opened TaxWithholding
  import opened AccountMerge

  datatype Item = Item(itemCode: string, category: string, baseNetAmount: real)

  /** A row of the invoice's "tax_withholding_details" table. */
  datatype WithholdingDetail = WithholdingDetail(category: string, netAmount: real, taxWithheld: real)

  datatype PurchaseInvoice = PurchaseInvoice(
    supplier: string,
    applyTds: bool,
    itemWiseTds: bool,
    category: string,                   // the invoice-level Tax Withholding Category
    items: seq<Item>,
    taxes: seq<TaxRow>,
    withholdingDetails: seq<WithholdingDetail>,
    advanceTax: seq<AdvanceTaxRow>,
    withheldVouchers: seq<VoucherAmount>,
    taxWithholdingNetTotal: real,
    baseTaxWithholdingNetTotal: real,
    postingDate: string,
    costCenter: string)                 // what the host's cost-center lookup gives for the invoice

  /**
   * What the invoice's surroundings provide: the host helpers, the party type,
   * the supplier's default category, each category's settings for the
   * invoice's date and company (None when the category has no account for the
   * company), and the ledger facts for each category.
   */
  datatype Environment = Environment(
    host: Host,
    partyType: string,
    supplierCategory: string -> string,
    taxDetailsFor: string -> Option<TaxDetails>,
    factsFor: string -> LedgerFacts)

  /** What one category contributes to the invoice. */
  datatype CategoryOutcome = CategoryOutcome(
    detail: WithholdingDetail,
    advanceRows: seq<AdvanceTaxRow>,
    accountRow: TaxRow,                 // the tax row, its amount reduced by the advance set-off
    vouchers: seq<VoucherAmount>)

  /** What all categories contribute, in category order. */
  datatype Booking = Booking(
    details: seq<WithholdingDetail>,
    advanceRows: seq<AdvanceTaxRow>,
    categoryRows: seq<TaxRow>)

  function CategoryOf(i: Item): string {
    i.category
  }

  function NetOf(i: Item): real {
    i.baseNetAmount
  }

  function Withheld(d: WithholdingDetail): real {
    d.taxWithheld
  }

  // ---------------------------------------------------------------------
  // Category totals
  // ---------------------------------------------------------------------

  /** Adds `v` to the total of key `k`, opening a zero total at the end when `k` is new. */
  function AddAmount(totals: seq<(string, real)>, k: string, v: real): seq<(string, real)>
    decreases |totals|
  {
    if |totals| == 0 then [(k, 0.0 + v)]
    else if totals[0].0 == k then [(k, totals[0].1 + v)] + totals[1..]
    else [totals[0]] + AddAmount(totals[1..], k, v)
  }

  /** The per-category totals of the items' base net amounts; items without a category are skipped. */
  function CategoryTotals(items: seq<Item>): seq<(string, real)>
    decreases |items|
  {
    if |items| == 0 then []
    else
      var totals := CategoryTotals(items[..|items| - 1]);
      var it := items[|items| - 1];
      if it.category != "" then AddAmount(totals, it.category, it.baseNetAmount) else totals
  }

  /** Reference: the items that carry a category, in order. */
  function Categorized(items: seq<Item>): seq<Item>
    decreases |items|
  {
    if |items| == 0 then []
    else
      var it := items[|items| - 1];
      Categorized(items[..|items| - 1]) + (if it.category != "" then [it] else [])
  }

  /** Each group with its summed amount. */
  function SumGroups(g: seq<(string, seq<Item>)>): seq<(string, real)> {
    seq(|g|, i requires 0 <= i < |g| => (g[i].0, SumBy(g[i].1, NetOf)))
  }

  // ---------------------------------------------------------------------
  // One category
  // ---------------------------------------------------------------------

  /** The invoice as the tax computation sees it. */
  function TdsVoucherOf(inv: PurchaseInvoice): TdsVoucher {
    TdsVoucher(PurchaseInvoiceType, inv.itemWiseTds, inv.taxWithholdingNetTotal,
               inv.baseTaxWithholdingNetTotal, inv.postingDate)
  }

  /**
   * `get_item_tax_withholding_details` followed by `allocate_advance_tds` for
   * one category; None when the category has no settings for the company.
   * The withheld amount recorded is `get_tax_amount`'s tax before the set-off;
   * the advance rows and the account row's remaining tax are the allocation of
   * that tax over the advances, so the withheld amount equals what the
   * advances absorbed plus what is left on the account row.
   */
  function CategoryStep(env: Environment, inv: PurchaseInvoice, category: string, net: real): (r: Option<CategoryOutcome>)
    ensures r.None? <==> env.taxDetailsFor(category).None?
    ensures r.Some? ==>
      r.value.detail.category == category && r.value.detail.netAmount == net &&
      r.value.detail.taxWithheld == SumBy(r.value.advanceRows, Allocated) + r.value.accountRow.taxAmount
    ensures r.Some? ==> r.value.accountRow.costCenter == inv.costCenter
    ensures r.Some? ==>
      var res := TaxAmount(env.host, env.partyType, TdsVoucherOf(inv), env.taxDetailsFor(category).value,
                           env.factsFor(category), net);
      var alloc := Allocate(res.taxAmount, res.advances);
      r.value.detail.taxWithheld == res.taxAmount &&
      r.value.advanceRows == alloc.rows && r.value.accountRow.taxAmount == alloc.remaining &&
      r.value.vouchers == res.voucherWise
  {
    match env.taxDetailsFor(category)
    case None => None
    case Some(td) =>
      var res := TaxAmount(env.host, env.partyType, TdsVoucherOf(inv), td, env.factsFor(category), net);
      var row := env.host.taxRowFor(td).(taxAmount := res.taxAmount, costCenter := inv.costCenter);
      var alloc := Allocate(row.taxAmount, res.advances);
      AllocationConservesTax(row.taxAmount, res.advances);
      Some(CategoryOutcome(
        WithholdingDetail(category, net, row.taxAmount),
        alloc.rows,
        row.(taxAmount := alloc.remaining),
        res.voucherWise))
  }

  /** Runs the categories in dictionary order, keeping what each one that has settings contributes. */
  function BookCategories(env: Environment, inv: PurchaseInvoice, totals: seq<(string, real)>): (r: Booking)
    ensures |r.details| == |r.categoryRows| <= |totals|
    decreases |totals|
  {
    if |totals| == 0 then Booking([], [], [])
    else
      var rest := BookCategories(env, inv, totals[1..]);
      match CategoryStep(env, inv, totals[0].0, totals[0].1)
      case None => rest
      case Some(o) =>
        Booking([o.detail] + rest.details, o.advanceRows + rest.advanceRows, [o.accountRow] + rest.categoryRows)
  }

  /**
   * The voucher-wise amounts recorded on the invoice: those of the LAST
   * category of the loop, and none when that category had no settings.
   */
  function LastVouchers(env: Environment, inv: PurchaseInvoice, totals: seq<(string, real)>): seq<VoucherAmount>
    requires |totals| > 0
  {
    var last := totals[|totals| - 1];
    match CategoryStep(env, inv, last.0, last.1)
    case Some(o) => o.vouchers
    case None => []
  }

  // ---------------------------------------------------------------------
  // The invoice
  // ---------------------------------------------------------------------

  /** `custom_set_tax_withholding`. */
  function SetTaxWithholding(env: Environment, inv: PurchaseInvoice): (r: PurchaseInvoice)
    ensures !inv.applyTds ==> r == inv
    ensures inv.applyTds && inv.category != "" && Categorized(inv.items) == [] ==> r == inv
    ensures inv.applyTds && inv.category == "" && Categorized(inv.items) == [] ==>
      r == inv.(category := env.supplierCategory(inv.supplier))
    ensures inv.applyTds && Categorized(inv.items) != [] ==>
      r.category == "" && |r.taxes| >= |inv.taxes| &&
      inv.withholdingDetails <= r.withholdingDetails &&
      inv.advanceTax <= r.advanceTax &&
      inv.withheldVouchers <= r.withheldVouchers
    ensures r.items == inv.items && r.supplier == inv.supplier
  {
    if !inv.applyTds then inv
    else
      var inv1 := if inv.category == "" then inv.(category := env.supplierCategory(inv.supplier)) else inv;
      var totals := CategoryTotals(inv1.items);
      CategoryTotalsEmpty(inv1.items);
      if |totals| == 0 then inv1
      else
        var b := BookCategories(env, inv1, totals);
        MergeKeepsExistingRows(inv1.taxes, b.categoryRows);
        inv1.(
          category := "",
          withholdingDetails := inv1.withholdingDetails + b.details,
          advanceTax := inv1.advanceTax + b.advanceRows,
          taxes := MergeTaxes(inv1.taxes, b.categoryRows),
          withheldVouchers := inv1.withheldVouchers + LastVouchers(env, inv1, totals))
  }

  /** `CustomPurchaseInvoice.validate`: the details table is rebuilt from scratch, and only for item-wise TDS. */
  function Validate(env: Environment, inv: PurchaseInvoice): (r: PurchaseInvoice)
    ensures !inv.itemWiseTds ==> r == inv.(withholdingDetails := [])
    ensures inv.itemWiseTds && inv.applyTds && Categorized(inv.items) != [] ==>
      |r.withholdingDetails| <= |CategoryTotals(inv.items)|
    ensures (!inv.applyTds || Categorized(inv.items) == []) ==> r.withholdingDetails == []
  {
    var cleared := inv.(withholdingDetails := []);
    if inv.itemWiseTds then
      var r := SetTaxWithholding(env, cleared);
      ValidateDetailsBound(env, cleared);
      r
    else cleared
  }

  // ---------------------------------------------------------------------
  // Properties
  // ---------------------------------------------------------------------

  lemma {:induction false} CategorizedMembers(items: seq<Item>)
    ensures forall x :: x in Categorized(items) <==> x in items && x.category != ""
    decreases |items|
  {
    if |items| > 0 {
      var n := |items| - 1;
      CategorizedMembers(items[..n]);
      assert items == items[..n] + [items[n]];
    }
  }

  /** There are no totals exactly when no item carries a category. */
  lemma {:induction false} CategoryTotalsEmpty(items: seq<Item>)
    ensures |CategoryTotals(items)| == 0 <==> Categorized(items) == []
    decreases |items|
  {
    if |items| > 0 {
      var n := |items| - 1;
      CategoryTotalsEmpty(items[..n]);
      var t := CategoryTotals(items[..n]);
      if items[n].category != "" {
        assert |AddAmount(t, items[n].category, items[n].baseNetAmount)| > 0;
        assert |Categorized(items)| > 0;
      }
    }
  }

  lemma SumGroupsCons(h: (string, seq<Item>), t: seq<(string, seq<Item>)>)
    ensures SumGroups([h] + t) == [(h.0, SumBy(h.1, NetOf))] + SumGroups(t)
  {
    assert ([h] + t)[0] == h;
    forall i | 0 <= i < |t| ensures SumGroups([h] + t)[i + 1] == SumGroups(t)[i] {
      assert ([h] + t)[i + 1] == t[i];
    }
  }

  /** Adding to a dictionary whose first key is the item's: that total grows by the item's amount. */
  lemma {:induction false} AddAmountToHead(g: seq<(string, seq<Item>)>, x: Item)
    requires |g| > 0 && g[0].0 == x.category
    ensures AddAmount(SumGroups(g), x.category, NetOf(x)) == SumGroups(AddTo(g, x.category, x))
  {
    var k := x.category;
    var grown := g[0].1 + [x];
    assert grown[..|g[0].1|] == g[0].1;
    assert SumBy(grown, NetOf) == SumBy(g[0].1, NetOf) + NetOf(x);
    assert g == [g[0]] + g[1..];
    SumGroupsCons(g[0], g[1..]);
    assert AddTo(g, k, x) == [(k, grown)] + g[1..];
    SumGroupsCons((k, grown), g[1..]);
  }

  lemma {:induction false} AddAmountSumGroups(g: seq<(string, seq<Item>)>, x: Item)
    ensures AddAmount(SumGroups(g), x.category, NetOf(x)) == SumGroups(AddTo(g, x.category, x))
    decreases |g|
  {
    var k := x.category;
    if |g| == 0 {
      assert [x][..0] == [];
      assert SumBy([x], NetOf) == 0.0 + NetOf(x);
      assert SumGroups(AddTo(g, k, x)) == [(k, SumBy([x], NetOf))];
    } else if g[0].0 == k {
      AddAmountToHead(g, x);
    } else {
      AddAmountSumGroups(g[1..], x);
      assert g == [g[0]] + g[1..];
      SumGroupsCons(g[0], g[1..]);
      assert AddTo(g, k, x) == [g[0]] + AddTo(g[1..], k, x);
      SumGroupsCons(g[0], AddTo(g[1..], k, x));
    }
  }

  /** The totals dictionary is the category grouping of the categorized items, each group summed. */
  lemma {:induction false} TotalsAreGroupSums(items: seq<Item>)
    ensures CategoryTotals(items) == SumGroups(GroupBy(Categorized(items), CategoryOf))
    decreases |items|
  {
    if |items| > 0 {
      var n := |items| - 1;
      var it := items[n];
      TotalsAreGroupSums(items[..n]);
      var c := Categorized(items[..n]);
      if it.category != "" {
        assert Categorized(items) == c + [it];
        assert (c + [it])[..|c|] == c;
        assert GroupBy(c + [it], CategoryOf) == AddTo(GroupBy(c, CategoryOf), it.category, it);
        AddAmountSumGroups(GroupBy(c, CategoryOf), it);
      } else {
        assert Categorized(items) == c + [];
        assert c + [] == c;
      }
    }
  }

  /**
   * One total per category, in order of first appearance among the items
   * that carry one, each the sum of the base net amounts of that category's
   * items.
   */
  lemma CategoryTotalsMatchReference(items: seq<Item>)
    ensures var ks := KeysInOrder(Categorized(items), CategoryOf);
      |CategoryTotals(items)| == |ks| &&
      forall i :: 0 <= i < |ks| ==>
        CategoryTotals(items)[i] == (ks[i], SumBy(Members(Categorized(items), CategoryOf, ks[i]), NetOf))
    ensures forall i :: 0 <= i < |CategoryTotals(items)| ==> CategoryTotals(items)[i].0 != ""
  {
    TotalsAreGroupSums(items);
    GroupByMatchesReference(Categorized(items), CategoryOf);
    CategorizedMembers(items);
    var ks := KeysInOrder(Categorized(items), CategoryOf);
    forall i | 0 <= i < |ks| ensures ks[i] != "" {
      KeysInOrderMembership(Categorized(items), CategoryOf, ks[i]);
    }
  }

  /** Items without a category play no part: dropping them gives the same totals. */
  lemma {:induction false} UncategorizedItemsIgnored(items: seq<Item>)
    ensures CategoryTotals(Categorized(items)) == CategoryTotals(items)
    decreases |items|
  {
    if |items| > 0 {
      var n := |items| - 1;
      UncategorizedItemsIgnored(items[..n]);
      var c := Categorized(items[..n]);
      if items[n].category != "" {
        assert Categorized(items) == c + [items[n]];
        assert (c + [items[n]])[..|c|] == c;
        CategorizedIdempotent(items[..n]);
        assert Categorized(c + [items[n]]) == Categorized(c) + [items[n]];
      } else {
        assert Categorized(items) == c + [];
        assert c + [] == c;
      }
    }
  }

  lemma {:induction false} CategorizedIdempotent(items: seq<Item>)
    ensures Categorized(Categorized(items)) == Categorized(items)
    decreases |items|
  {
    if |items| > 0 {
      var n := |items| - 1;
      CategorizedIdempotent(items[..n]);
      var c := Categorized(items[..n]);
      if items[n].category != "" {
        assert (c + [items[n]])[..|c|] == c;
      } else {
        assert c + [] == c;
      }
    }
  }

  /** Reference: the categories of the totals that have settings, in order. */
  function CategoriesWithDetails(env: Environment, totals: seq<(string, real)>): seq<string>
    decreases |totals|
  {
    if |totals| == 0 then []
    else (if env.taxDetailsFor(totals[0].0).Some? then [totals[0].0] else []) + CategoriesWithDetails(env, totals[1..])
  }

  function DetailCategories(ds: seq<WithholdingDetail>): seq<string> {
    seq(|ds|, i requires 0 <= i < |ds| => ds[i].category)
  }

  /**
   * One detail row per category that has settings, in dictionary order;
   * categories without settings are skipped.
   */
  lemma {:induction false} DetailsFollowCategories(env: Environment, inv: PurchaseInvoice, totals: seq<(string, real)>)
    ensures DetailCategories(BookCategories(env, inv, totals).details) == CategoriesWithDetails(env, totals)
    decreases |totals|
  {
    if |totals| > 0 {
      DetailsFollowCategories(env, inv, totals[1..]);
      var rest := BookCategories(env, inv, totals[1..]);
      var b := BookCategories(env, inv, totals);
      match CategoryStep(env, inv, totals[0].0, totals[0].1)
      case None =>
        assert b == rest;
        assert CategoriesWithDetails(env, totals) == [] + CategoriesWithDetails(env, totals[1..]);
      case Some(o) =>
        assert b.details == [o.detail] + rest.details;
        assert DetailCategories(b.details) == [totals[0].0] + DetailCategories(rest.details);
    }
  }

  /** Each detail row pairs a category with that category's own total. */
  lemma {:induction false} DetailsComeFromTotals(env: Environment, inv: PurchaseInvoice, totals: seq<(string, real)>)
    ensures forall d :: d in BookCategories(env, inv, totals).details ==> (d.category, d.netAmount) in totals
    decreases |totals|
  {
    if |totals| > 0 {
      DetailsComeFromTotals(env, inv, totals[1..]);
      var rest := BookCategories(env, inv, totals[1..]);
      var b := BookCategories(env, inv, totals);
      match CategoryStep(env, inv, totals[0].0, totals[0].1)
      case None =>
        assert b == rest;
        assert forall t :: t in totals[1..] ==> t in totals;
      case Some(o) =>
        assert b.details == [o.detail] + rest.details;
        forall d | d in b.details ensures (d.category, d.netAmount) in totals {
          if d in rest.details {
            assert (d.category, d.netAmount) in totals[1..];
          } else {
            assert totals[0] == (d.category, d.netAmount);
          }
        }
    }
  }

  /**
   * Money is conserved across the categories: the tax recorded as withheld
   * equals what was set off against advances plus what is left on the
   * per-category account rows.
   */
  lemma {:induction false} BookingConservesTax(env: Environment, inv: PurchaseInvoice, totals: seq<(string, real)>)
    ensures var b := BookCategories(env, inv, totals);
      SumBy(b.details, Withheld) == SumBy(b.advanceRows, Allocated) + SumBy(b.categoryRows, TaxOf)
    decreases |totals|
  {
    if |totals| > 0 {
      BookingConservesTax(env, inv, totals[1..]);
      var rest := BookCategories(env, inv, totals[1..]);
      match CategoryStep(env, inv, totals[0].0, totals[0].1)
      case None =>
      case Some(o) =>
        SumByCons(o.detail, rest.details, Withheld);
        SumByAppend(o.advanceRows, rest.advanceRows, Allocated);
        SumByCons(o.accountRow, rest.categoryRows, TaxOf);
    }
  }

  /**
   * The category rows put on an account exactly what the categories booked
   * there; the merged taxes table then carries, on each account that got
   * category tax, that account's sum.
   */
  lemma ExistingTaxRowsBooked(env: Environment, inv: PurchaseInvoice)
    requires inv.applyTds && Categorized(inv.items) != []
    ensures var r := SetTaxWithholding(env, inv);
      var inv1 := if inv.category == "" then inv.(category := env.supplierCategory(inv.supplier)) else inv;
      var b := BookCategories(env, inv1, CategoryTotals(inv.items));
      |r.taxes| >= |inv.taxes| &&
      forall i :: 0 <= i < |inv.taxes| ==>
        r.taxes[i] == Booked(b.categoryRows, inv.taxes[i].accountHead).GetOr(inv.taxes[i])
  {
    var inv1 := if inv.category == "" then inv.(category := env.supplierCategory(inv.supplier)) else inv;
    CategoryTotalsEmpty(inv.items);
    MergeKeepsExistingRows(inv.taxes, BookCategories(env, inv1, CategoryTotals(inv.items)).categoryRows);
  }

  lemma ValidateDetailsBound(env: Environment, inv: PurchaseInvoice)
    requires inv.withholdingDetails == []
    ensures inv.applyTds && Categorized(inv.items) != [] ==>
      |SetTaxWithholding(env, inv).withholdingDetails| <= |CategoryTotals(inv.items)|
    ensures (!inv.applyTds || Categorized(inv.items) == []) ==> SetTaxWithholding(env, inv).withholdingDetails == []
  {
    CategoryTotalsEmpty(inv.items);
  }
}

=== FILE: money.dfy ===
/** Exact money arithmetic: sums of amounts over sequences. */
module Money {

  /** The sum of `f` over `xs`, accumulated left to right as the source's running totals are. */
  function SumBy<T>(xs: seq<T>, f: T -> real): real
    decreases |xs|
  {
    if |xs| == 0 then 0.0 else SumBy(xs[..|xs| - 1], f) + f(xs[|xs| - 1])
  }

  /** Sums split over concatenation. */
  lemma {:induction false} SumByAppend<T>(a: seq<T>, b: seq<T>, f: T -> real)
    ensures SumBy(a + b, f) == SumBy(a, f) + SumBy(b, f)
    decreases |b|
  {
    if |b| == 0 {
      assert a + b == a;
    } else {
      var n := |b| - 1;
      assert (a + b)[..|a + b| - 1] == a + b[..n];
      SumByAppend(a, b[..n], f);
    }
  }

  /** Summing from the front gives the same total as the left-to-right fold. */
  lemma {:induction false} SumByCons<T>(x: T, xs: seq<T>, f: T -> real)
    ensures SumBy([x] + xs, f) == f(x) + SumBy(xs, f)
  {
    SumByAppend([x], xs, f);
    assert [x][..0] == [];
  }
}

=== FILE: report_docs.dfy ===
/**
 * The inputs the TDS report derives before it builds rows: the date-filter
 * check, the map from withholding account to its category, the per-document
 * category and net-total maps (`get_doc_info`) and the journal-entry party
 * lists. The document lists themselves come from database queries and are
 * parameters here.
 *
 * A string field holding "" stands for a missing (falsy) value.
 */
module ReportDocs {
  import opened Wrappers
  import opened Grouping
  import opened TextOrder
  import ItemWiseTds

  const PurchaseInvoiceType := "Purchase Invoice"
  const SalesInvoiceType := "Sales Invoice"
  const PaymentEntryType := "Payment Entry"
  const JournalEntryType := "Journal Entry"

  const DateOrderError := "From Date must be before To Date"
  const AccountsMissingError := "No Tax Withholding Accounts found for this company."

  // ---------------------------------------------------------------------
  // Filters
  // ---------------------------------------------------------------------

  datatype Filters = Filters(fromDate: string, toDate: string)

  /** `validate_filters`: the dates compare as strings, and a range that ends before it starts is refused. */
  function ValidateFilters(f: Filters): (r: Result<Filters, string>)
    ensures r.Ok? <==> StrLe(f.fromDate, f.toDate)
    ensures r.Err? <==> StrLe(f.toDate, f.fromDate) && f.toDate != f.fromDate
    ensures r.Ok? ==> r.value == f
  {
    StrictlyAfter(f.toDate, f.fromDate);
    if StrLt(f.toDate, f.fromDate) then Err(DateOrderError) else Ok(f)
  }

  // ---------------------------------------------------------------------
  // Withholding accounts
  // ---------------------------------------------------------------------

  /** A "Tax Withholding Account" row: an account used by the category `parent`. */
  datatype WithholdingAccount = WithholdingAccount(account: string, parent: string)

  /**
   * `tds_accounts`: each account maps to its category, or to None once a
   * second row names the same account.
   */
  function TdsAccountMap(rows: seq<WithholdingAccount>): map<string, Option<string>>
    decreases |rows|
  {
    if |rows| == 0 then map[]
    else
      var m := TdsAccountMap(rows[..|rows| - 1]);
      var last := rows[|rows| - 1];
      if last.account in m then m[last.account := None] else m[last.account := Some(last.parent)]
  }

  /** Reference: how many rows name `account`. */
  function AccountCount(rows: seq<WithholdingAccount>, account: string): nat
    decreases |rows|
  {
    if |rows| == 0 then 0
    else AccountCount(rows[..|rows| - 1], account) + (if rows[|rows| - 1].account == account then 1 else 0)
  }

  /**
   * The account map and the refusal of a company that has no withholding
   * accounts (`get_tds_docs_query` throws before running any query).
   */
  function TdsAccounts(rows: seq<WithholdingAccount>): (r: Result<map<string, Option<string>>, string>)
    ensures r.Err? <==> |rows| == 0
    ensures r.Ok? ==> r.value == TdsAccountMap(rows)
  {
    var m := TdsAccountMap(rows);
    TdsAccountMapEmpty(rows);
    if |m| == 0 then Err(AccountsMissingError) else Ok(m)
  }

  // ---------------------------------------------------------------------
  // Document information
  // ---------------------------------------------------------------------

  /** The fields `get_doc_info` reads from each kind of document. */
  datatype SourceDoc =
    | PurchaseInvoiceDoc(name: string, category: string, baseTaxWithholdingNetTotal: real,
                         taxesDeducted: real, billNo: string, billDate: string, itemWiseTds: bool,
                         details: seq<ItemWiseTds.WithholdingDetail>)
    | SalesInvoiceDoc(name: string, baseTotal: real)
    | PaymentEntryDoc(name: string, category: string, basePaidAmount: real)
    | JournalEntryDoc(name: string, category: string, totalDebit: real)

  /** One entry of a Purchase Invoice's net-total list: category, net amount, tax withheld, bill number and date. */
  datatype DetailTuple = DetailTuple(category: string, netAmount: real, taxWithheld: real, billNo: string, billDate: string)

  /**
   * `tax_category_map` and `net_total_map`. The net-total lists of Purchase
   * Invoices hold tuples and those of the other documents hold amounts, so
   * the one Python map is two maps here.
   */
  datatype DocInfo = DocInfo(
    categories: map<(string, string), string>,
    invoiceTotals: map<string, seq<DetailTuple>>,
    otherTotals: map<(string, string), seq<real>>)

  function DocType(d: SourceDoc): string {
    match d
    case PurchaseInvoiceDoc(_, _, _, _, _, _, _, _) => PurchaseInvoiceType
    case SalesInvoiceDoc(_, _) => SalesInvoiceType
    case PaymentEntryDoc(_, _, _) => PaymentEntryType
    case JournalEntryDoc(_, _, _) => JournalEntryType
  }

  function KeyOf(d: SourceDoc): (string, string) {
    (DocType(d), d.name)
  }

  /** The category recorded for a document; a Sales Invoice does not fetch one. */
  function DocCategory(d: SourceDoc): string {
    if d.SalesInvoiceDoc? then "" else d.category
  }

  /**
   * A Purchase Invoice's list: one tuple per withholding detail row when the
   * invoice is item-wise, else one tuple of the invoice's own totals; every
   * tuple carries the supplier's bill number and date.
   */
  function InvoiceTuples(d: SourceDoc): (r: seq<DetailTuple>)
    requires d.PurchaseInvoiceDoc?
    ensures |r| == (if d.itemWiseTds then |d.details| else 1)
    ensures forall i :: 0 <= i < |r| ==> r[i].billNo == d.billNo && r[i].billDate == d.billDate
    ensures d.itemWiseTds ==> forall i :: 0 <= i < |r| ==>
      r[i].category == d.details[i].category && r[i].netAmount == d.details[i].netAmount &&
      r[i].taxWithheld == d.details[i].taxWithheld
  {
    if d.itemWiseTds then
      seq(|d.details|, i requires 0 <= i < |d.details| =>
        DetailTuple(d.details[i].category, d.details[i].netAmount, d.details[i].taxWithheld, d.billNo, d.billDate))
    else
      [DetailTuple(d.category, d.baseTaxWithholdingNetTotal, d.taxesDeducted, d.billNo, d.billDate)]
  }

  /** The list of any other document: its base total, its base paid amount, or its total debit three times. */
  function OtherAmounts(d: SourceDoc): (r: seq<real>)
    requires !d.PurchaseInvoiceDoc?
    ensures |r| > 0 && forall i :: 0 <= i < |r| ==> r[i] == DocAmount(d)
  {
    match d
    case SalesInvoiceDoc(_, total) => [total]
    case PaymentEntryDoc(_, _, paid) => [paid]
    case JournalEntryDoc(_, _, debit) => [debit, debit, debit]
  }

  /** Reference: the single amount a non-invoice document stands for. */
  function DocAmount(d: SourceDoc): real
    requires !d.PurchaseInvoiceDoc?
  {
    if d.SalesInvoiceDoc? then d.baseTotal
    else if d.PaymentEntryDoc? then d.basePaidAmount
    else d.totalDebit
  }

  function AddDoc(info: DocInfo, d: SourceDoc): DocInfo {
    var info1 := info.(categories := info.categories[KeyOf(d) := DocCategory(d)]);
    if d.PurchaseInvoiceDoc? then info1.(invoiceTotals := info1.invoiceTotals[d.name := InvoiceTuples(d)])
    else info1.(otherTotals := info1.otherTotals[KeyOf(d) := OtherAmounts(d)])
  }

  /** `get_doc_info` run over the documents of every type, in order. */
  function GetDocInfo(docs: seq<SourceDoc>): DocInfo
    decreases |docs|
  {
    if |docs| == 0 then DocInfo(map[], map[], map[])
    else AddDoc(GetDocInfo(docs[..|docs| - 1]), docs[|docs| - 1])
  }

  // ---------------------------------------------------------------------
  // Journal entry parties
  // ---------------------------------------------------------------------

  /** A party row of a Journal Entry ("Journal Entry Account" with a Supplier or Customer party). */
  datatype JeAccountRow = JeAccountRow(parent: string, party: string)

  function ParentOf(r: JeAccountRow): string {
    r.parent
  }

  /** `get_journal_entry_party_map`: the rows grouped by journal entry, in order. */
  function JournalPartyMap(rows: seq<JeAccountRow>): seq<(string, seq<JeAccountRow>)> {
    GroupBy(rows, ParentOf)
  }

  /** The party the report uses for a journal entry: the first in its list, if the list is non-empty. */
  function JournalParty(m: seq<(string, seq<JeAccountRow>)>, name: string): Option<string> {
    match Lookup(m, name)
    case Some(group) => if |group| > 0 then Some(group[0].party) else None
    case None => None
  }

  // ---------------------------------------------------------------------
  // Properties
  // ---------------------------------------------------------------------

  /** `a < b` on strings holds exactly when `a <= b` and they differ. */
  lemma StrictlyAfter(a: string, b: string)
    ensures StrLt(a, b) <==> !StrLe(b, a)
    ensures !StrLe(b, a) <==> StrLe(a, b) && a != b
  {
    StrLtIsNotGe(a, b);
    StrLeTotal(a, b);
    if a == b {
      StrLeReflexive(a);
    }
    if StrLe(a, b) && StrLe(b, a) {
      StrLeAntisymmetric(a, b);
    }
  }

  /** The account map is empty exactly when there are no rows. */
  lemma TdsAccountMapEmpty(rows: seq<WithholdingAccount>)
    ensures |TdsAccountMap(rows)| == 0 <==> |rows| == 0
  {
    if |rows| > 0 {
      TdsAccountMapMeaning(rows, rows[0].account);
      AccountCountPositive(rows, 0);
      assert rows[0].account in TdsAccountMap(rows);
    }
  }

  lemma {:induction false} AccountCountPositive(rows: seq<WithholdingAccount>, i: int)
    requires 0 <= i < |rows|
    ensures AccountCount(rows, rows[i].account) > 0
    decreases |rows|
  {
    var n := |rows| - 1;
    if i < n {
      AccountCountPositive(rows[..n], i);
      assert rows[..n][i] == rows[i];
    }
  }

  /**
   * An account is in the map exactly when some row names it; it keeps its
   * category exactly when only one row names it, and that category is the
   * row's.
   */
  lemma {:induction false} TdsAccountMapMeaning(rows: seq<WithholdingAccount>, a: string)
    ensures a in TdsAccountMap(rows) <==> AccountCount(rows, a) > 0
    ensures a in TdsAccountMap(rows) ==> (TdsAccountMap(rows)[a].Some? <==> AccountCount(rows, a) == 1)
    ensures a in TdsAccountMap(rows) && TdsAccountMap(rows)[a].Some? ==>
      WithholdingAccount(a, TdsAccountMap(rows)[a].value) in rows
    decreases |rows|
  {
    if |rows| > 0 {
      var n := |rows| - 1;
      TdsAccountMapMeaning(rows[..n], a);
      var m := TdsAccountMap(rows[..n]);
      if rows[n].account == a && a !in m {
        assert WithholdingAccount(a, rows[n].parent) == rows[n];
      }
      if a in TdsAccountMap(rows) && TdsAccountMap(rows)[a].Some? && rows[n].account != a {
        var w := WithholdingAccount(a, TdsAccountMap(rows)[a].value);
        assert w in rows[..n];
        var j :| 0 <= j < n && rows[..n][j] == w;
        assert rows[j] == w;
      }
    }
  }

  /**
   * Each document's entries are those of the last listed document with its
   * key: its category, and its net-total list in the map for its kind.
   */
  lemma {:induction false} DocInfoOfLastDoc(docs: seq<SourceDoc>, i: int)
    requires 0 <= i < |docs|
    requires forall j :: i < j < |docs| ==> KeyOf(docs[j]) != KeyOf(docs[i])
    ensures var info := GetDocInfo(docs);
      KeyOf(docs[i]) in info.categories && info.categories[KeyOf(docs[i])] == DocCategory(docs[i])
    ensures var info := GetDocInfo(docs);
      docs[i].PurchaseInvoiceDoc? ==>
        docs[i].name in info.invoiceTotals && info.invoiceTotals[docs[i].name] == InvoiceTuples(docs[i])
    ensures var info := GetDocInfo(docs);
      !docs[i].PurchaseInvoiceDoc? ==>
        KeyOf(docs[i]) in info.otherTotals && info.otherTotals[KeyOf(docs[i])] == OtherAmounts(docs[i])
    decreases |docs|
  {
    var n := |docs| - 1;
    if i < n {
      forall j | i < j < n ensures KeyOf(docs[..n][j]) != KeyOf(docs[..n][i]) {
        assert docs[..n][j] == docs[j];
      }
      DocInfoOfLastDoc(docs[..n], i);
      assert docs[..n][i] == docs[i];
      var d := docs[n];
      assert KeyOf(d) != KeyOf(docs[i]);
      if d.PurchaseInvoiceDoc? && docs[i].PurchaseInvoiceDoc? {
        assert d.name != docs[i].name;
      }
    }
  }

  /** Only listed documents have entries. */
  lemma {:induction false} DocInfoKeys(docs: seq<SourceDoc>)
    ensures forall k :: k in GetDocInfo(docs).categories <==> exists i :: 0 <= i < |docs| && KeyOf(docs[i]) == k
    ensures forall k :: k in GetDocInfo(docs).otherTotals ==>
      exists i :: 0 <= i < |docs| && KeyOf(docs[i]) == k && !docs[i].PurchaseInvoiceDoc?
    ensures forall name :: name in GetDocInfo(docs).invoiceTotals ==>
      exists i :: 0 <= i < |docs| && docs[i].name == name && docs[i].PurchaseInvoiceDoc?
    decreases |docs|
  {
    if |docs| > 0 {
      var n := |docs| - 1;
      DocInfoKeys(docs[..n]);
      forall k | k in GetDocInfo(docs).categories
        ensures exists i :: 0 <= i < |docs| && KeyOf(docs[i]) == k
      {
        if k != KeyOf(docs[n]) {
          assert GetDocInfo(docs).categories == GetDocInfo(docs[..n]).categories[KeyOf(docs[n]) := DocCategory(docs[n])];
          assert k in GetDocInfo(docs[..n]).categories;
          var i :| 0 <= i < n && KeyOf(docs[..n][i]) == k;
          assert docs[..n][i] == docs[i];
        }
      }
      forall k | exists i :: 0 <= i < |docs| && KeyOf(docs[i]) == k
        ensures k in GetDocInfo(docs).categories
      {
        var i :| 0 <= i < |docs| && KeyOf(docs[i]) == k;
        if i < n {
          assert docs[..n][i] == docs[i];
        }
      }
      forall k | k in GetDocInfo(docs).otherTotals
        ensures exists i :: 0 <= i < |docs| && KeyOf(docs[i]) == k && !docs[i].PurchaseInvoiceDoc?
      {
        if k !in GetDocInfo(docs[..n]).otherTotals {
          assert KeyOf(docs[n]) == k && !docs[n].PurchaseInvoiceDoc?;
        } else if !(KeyOf(docs[n]) == k && !docs[n].PurchaseInvoiceDoc?) {
          var i :| 0 <= i < n && KeyOf(docs[..n][i]) == k && !docs[..n][i].PurchaseInvoiceDoc?;
          assert docs[..n][i] == docs[i];
        }
      }
      forall name | name in GetDocInfo(docs).invoiceTotals
        ensures exists i :: 0 <= i < |docs| && docs[i].name == name && docs[i].PurchaseInvoiceDoc?
      {
        if name !in GetDocInfo(docs[..n]).invoiceTotals {
          assert docs[n].name == name && docs[n].PurchaseInvoiceDoc?;
        } else if !(docs[n].name == name && docs[n].PurchaseInvoiceDoc?) {
          var i :| 0 <= i < n && docs[..n][i].name == name && docs[..n][i].PurchaseInvoiceDoc?;
          assert docs[..n][i] == docs[i];
        }
      }
    }
  }

  /**
   * The journal party of an entry is the party of the first of its rows, and
   * there is none when the entry has no party rows.
   */
  lemma JournalPartyIsFirstRow(rows: seq<JeAccountRow>, name: string)
    ensures JournalParty(JournalPartyMap(rows), name) ==
      match FirstWithKey(rows, ParentOf, name)
      case Some(row) => Some(row.party)
      case None => None
  {
    LookupGroupBy(rows, ParentOf, name);
    MembersStartWithFirst(rows, ParentOf, name);
    if name !in KeysInOrder(rows, ParentOf) {
      MembersOfAbsentKey(rows, ParentOf, name);
    }
  }
}

=== FILE: report_rows.dfy ===
/**
 * The rows of the TDS report (`get_result`): one row per GL entry of a
 * listed voucher that posts a nonzero amount to a withholding account, with
 * the party, the section code (category), the rate and the amount the tax
 * was computed on, sorted by section code.
 *
 * A string field holding "" stands for a missing (falsy) value.
 */
module TdsReport {
  import opened Wrappers
  import opened Grouping
  import opened TextOrder
  import opened ReportDocs

  /** The fields of a GL Entry the report reads. */
  datatype GlEntry = GlEntry(
    voucherNo: string,
    voucherType: string,
    account: string,
    party: string,
    against: string,
    credit: real,
    debit: real,
    postingDate: string)

  /**
   * A supplier or customer as the report knows it: name, default category,
   * PAN, display name, and the supplier or customer type matching its party
   * type.
   */
  datatype PartyInfo = PartyInfo(name: string, category: string, pan: string, partyName: string, entityType: string)

  datatype ReportRow = ReportRow(
    pan: Option<string>,
    party: Option<string>,
    partyName: Option<string>,      // only under naming by series
    sectionCode: string,
    entityType: Option<string>,
    rate: Option<real>,
    totalAmount: real,
    taxAmount: real,
    transactionDate: string,
    transactionType: string,
    refNo: string,
    billNo: string,
    billDate: string)

  /** Everything `get_result` looks entries up in. */
  datatype ReportContext = ReportContext(
    tdsAccounts: map<string, Option<string>>,
    docs: DocInfo,
    journalParties: seq<(string, seq<JeAccountRow>)>,
    parties: map<string, PartyInfo>,
    rates: map<string, real>,
    namingSeries: bool)

  /** Category, rate, amount and bill reference of a row as they are being worked out. */
  datatype Figures = Figures(category: string, rate: Option<real>, total: real, billNo: string, billDate: string)

  function VoucherOf(e: GlEntry): string {
    e.voucherNo
  }

  function SectionOf(r: ReportRow): string {
    r.sectionCode
  }

  /** `get_gle_map`: the entries grouped by voucher number, in order. */
  function GleMap(gle: seq<GlEntry>): seq<(string, seq<GlEntry>)> {
    GroupBy(gle, VoucherOf)
  }

  function Min(a: real, b: real): real {
    if a <= b then a else b
  }

  /** `tax_rate_map.get(category)`; no category has no rate. */
  function RateFor(rates: map<string, real>, category: string): Option<real> {
    if category != "" && category in rates then Some(rates[category]) else None
  }

  function PartyField(ctx: ReportContext, party: string, field: PartyInfo -> string): Option<string> {
    if party in ctx.parties then Some(field(ctx.parties[party])) else None
  }

  function PanOf(p: PartyInfo): string {
    p.pan
  }

  function NameOf(p: PartyInfo): string {
    p.name
  }

  function DisplayNameOf(p: PartyInfo): string {
    p.partyName
  }

  function EntityOf(p: PartyInfo): string {
    p.entityType
  }

  /** The party of an entry: its party, else its "against"; for a journal entry, the first party of the entry's party rows. */
  function EntryParty(ctx: ReportContext, name: string, e: GlEntry): string {
    var party := if e.party != "" then e.party else e.against;
    if e.voucherType == JournalEntryType then
      match JournalParty(ctx.journalParties, name)
      case Some(p) => p
      case None => party
    else party
  }

  /**
   * The category of an entry on a withholding account: the account's own
   * category when it belongs to one category only, else the voucher's, else
   * the party's default.
   */
  function InferredCategory(ctx: ReportContext, name: string, e: GlEntry, party: string): string
    requires e.account in ctx.tdsAccounts
  {
    var fromAccount := ctx.tdsAccounts[e.account].GetOr("");
    var key := (e.voucherType, name);
    var fromVoucher := if key in ctx.docs.categories then ctx.docs.categories[key] else "";
    if fromAccount != "" then fromAccount
    else if fromVoucher != "" then fromVoucher
    else if party in ctx.parties then ctx.parties[party].category
    else ""
  }

  /** The loop over a Purchase Invoice's tuples: each tuple whose tax withheld equals the entry's tax takes over. */
  function MatchTuples(ts: seq<DetailTuple>, tax: real, rates: map<string, real>, init: Figures): Figures
    decreases |ts|
  {
    if |ts| == 0 then init
    else
      var f := MatchTuples(ts[..|ts| - 1], tax, rates, init);
      var v := ts[|ts| - 1];
      if v.taxWithheld == tax then Figures(v.category, RateFor(rates, v.category), v.netAmount, v.billNo, v.billDate)
      else f
  }

  /**
   * The amount a Sales Invoice, Payment Entry or Journal Entry is reported
   * on: the first element of its net-total list.
   */
  function OtherTotal(xs: seq<real>): real
    requires |xs| > 0
  {
    xs[0]
  }

  /** Whether the document of the entry has a non-empty list of net-total figures. */
  predicate HasNetTotal(ctx: ReportContext, name: string, e: GlEntry) {
    if e.voucherType == PurchaseInvoiceType then name in ctx.docs.invoiceTotals && |ctx.docs.invoiceTotals[name]| > 0
    else (e.voucherType, name) in ctx.docs.otherTotals && |ctx.docs.otherTotals[(e.voucherType, name)]| > 0
  }

  /** The net-total branch of `get_result`. */
  function NetFigures(ctx: ReportContext, name: string, e: GlEntry, tax: real, init: Figures): Figures {
    if !HasNetTotal(ctx, name, e) then init.(total := init.total + e.credit)
    else if e.voucherType == PurchaseInvoiceType then
      MatchTuples(ctx.docs.invoiceTotals[name], tax, ctx.rates, init)
    else
      var xs := ctx.docs.otherTotals[(e.voucherType, name)];
      if e.voucherType == JournalEntryType && tax != 0.0 && init.rate.Some? && init.rate.value != 0.0 then
        init.(total := Min(tax / (init.rate.value / 100.0), xs[0]))
      else init.(total := OtherTotal(xs))
  }

  /** The row for GL entry `e` of voucher `name`, if it posts tax. */
  function EntryRow(ctx: ReportContext, name: string, e: GlEntry): (r: Option<ReportRow>)
    ensures r.Some? <==> e.account in ctx.tdsAccounts && e.credit != e.debit
    ensures r.Some? ==>
      r.value.taxAmount == e.credit - e.debit && r.value.refNo == name &&
      r.value.transactionType == e.voucherType && r.value.transactionDate == e.postingDate
  {
    var party := EntryParty(ctx, name, e);
    var onAccount := e.account in ctx.tdsAccounts;
    var tax := if onAccount then 0.0 + (e.credit - e.debit) else 0.0;
    var category := if onAccount then InferredCategory(ctx, name, e, party) else "";
    var rate := if onAccount then RateFor(ctx.rates, category) else None;
    var f := NetFigures(ctx, name, e, tax, Figures(category, rate, 0.0, "", ""));
    if tax == 0.0 then None
    else Some(ReportRow(
      PartyField(ctx, party, PanOf),
      PartyField(ctx, party, NameOf),
      if ctx.namingSeries then PartyField(ctx, party, DisplayNameOf) else None,
      f.category,
      PartyField(ctx, party, EntityOf),
      f.rate,
      f.total,
      tax,
      e.postingDate,
      e.voucherType,
      name,
      f.billNo,
      f.billDate))
  }

  /** The rows of one voucher's entries, in order. */
  function VoucherRows(ctx: ReportContext, name: string, es: seq<GlEntry>): seq<ReportRow>
    decreases |es|
  {
    if |es| == 0 then []
    else (match EntryRow(ctx, name, es[0]) case Some(r) => [r] case None => []) + VoucherRows(ctx, name, es[1..])
  }

  /** The rows of every voucher of the GL map, voucher after voucher. */
  function MapRows(ctx: ReportContext, groups: seq<(string, seq<GlEntry>)>): seq<ReportRow>
    decreases |groups|
  {
    if |groups| == 0 then [] else VoucherRows(ctx, groups[0].0, groups[0].1) + MapRows(ctx, groups[1..])
  }

  /** `get_result`: the rows sorted (stably) by section code. */
  function GetResult(ctx: ReportContext, gle: seq<GlEntry>): (r: seq<ReportRow>)
    ensures SortedByKey(r, SectionOf)
  {
    SortByKey(MapRows(ctx, GleMap(gle)), SectionOf)
  }

  /** Reference: the row of an entry, looked up under its own voucher number. */
  function RowFn(ctx: ReportContext): GlEntry -> Option<ReportRow> {
    (e: GlEntry) => EntryRow(ctx, e.voucherNo, e)
  }

  // ---------------------------------------------------------------------
  // The total amount as written
  // ---------------------------------------------------------------------

  /** What `total_amount` can hold as the code is written: a number, or a whole list. */
  datatype TotalAmount = Amount(value: real) | AmountList(values: seq<real>)

  /**
   * The last branch of the net-total logic as written: the whole list is
   * stored as the row's total amount, not its first element.
   */
  function OtherTotalAsWritten(xs: seq<real>): TotalAmount {
    AmountList(xs)
  }

  // ---------------------------------------------------------------------
  // Properties
  // ---------------------------------------------------------------------

  /** With a row of each voucher only under its own number, the map's rows are the entries' rows in map order. */
  lemma {:induction false} VoucherRowsCollect(ctx: ReportContext, name: string, es: seq<GlEntry>)
    requires forall j :: 0 <= j < |es| ==> es[j].voucherNo == name
    ensures VoucherRows(ctx, name, es) == Collect(es, RowFn(ctx))
    decreases |es|
  {
    if |es| > 0 {
      VoucherRowsCollect(ctx, name, es[1..]);
      assert RowFn(ctx)(es[0]) == EntryRow(ctx, name, es[0]);
    }
  }

  lemma {:induction false} MapRowsCollect(ctx: ReportContext, groups: seq<(string, seq<GlEntry>)>)
    requires WellKeyed(groups, VoucherOf)
    ensures MapRows(ctx, groups) == Collect(Flatten(groups), RowFn(ctx))
    decreases |groups|
  {
    if |groups| > 0 {
      assert WellKeyed(groups[1..], VoucherOf) by {
        forall i, y | 0 <= i < |groups[1..]| && y in groups[1..][i].1 ensures VoucherOf(y) == groups[1..][i].0 {
          assert groups[1..][i] == groups[i + 1];
        }
      }
      MapRowsCollect(ctx, groups[1..]);
      forall j | 0 <= j < |groups[0].1| ensures groups[0].1[j].voucherNo == groups[0].0 {
        assert groups[0].1[j] in groups[0].1;
        assert VoucherOf(groups[0].1[j]) == groups[0].0;
      }
      VoucherRowsCollect(ctx, groups[0].0, groups[0].1);
      CollectAppend(groups[0].1, Flatten(groups[1..]), RowFn(ctx));
    }
  }

  /**
   * The report is sorted by section code and holds exactly the rows of the
   * GL entries, each once: grouping by voucher and sorting only reorder them.
   * Rows with the same section code keep the GL map's order.
   */
  lemma ResultIsSortedPermutation(ctx: ReportContext, gle: seq<GlEntry>)
    ensures SortedByKey(GetResult(ctx, gle), SectionOf)
    ensures multiset(GetResult(ctx, gle)) == multiset(Collect(gle, RowFn(ctx)))
    ensures forall k :: WithKey(GetResult(ctx, gle), SectionOf, k)
                     == WithKey(MapRows(ctx, GleMap(gle)), SectionOf, k)
  {
    GroupByWellKeyed(gle, VoucherOf);
    MapRowsCollect(ctx, GleMap(gle));
    CollectOverGroups(gle, VoucherOf, RowFn(ctx));
  }

  /** `row` carries the tax that entry `e`, on a withholding account, posts under its voucher. */
  ghost predicate PostsRow(ctx: ReportContext, e: GlEntry, row: ReportRow) {
    e.account in ctx.tdsAccounts && e.credit != e.debit &&
    row.taxAmount == e.credit - e.debit && row.refNo == e.voucherNo
  }

  /**
   * Every row of the report comes from a GL entry on a withholding account
   * whose credit and debit differ, and carries that difference as its tax.
   */
  lemma ResultRowsPostTax(ctx: ReportContext, gle: seq<GlEntry>, row: ReportRow)
    requires row in GetResult(ctx, gle)
    ensures exists j :: 0 <= j < |gle| && PostsRow(ctx, gle[j], row)
    ensures row.taxAmount != 0.0
  {
    ResultIsSortedPermutation(ctx, gle);
    assert row in multiset(Collect(gle, RowFn(ctx)));
    CollectMembers(gle, RowFn(ctx), row);
    var j :| 0 <= j < |gle| && RowFn(ctx)(gle[j]) == Some(row);
    assert EntryRow(ctx, gle[j].voucherNo, gle[j]) == Some(row);
    assert PostsRow(ctx, gle[j], row);
  }

  /** Every entry that posts tax to a withholding account has its row in the report. */
  lemma EveryTaxEntryReported(ctx: ReportContext, gle: seq<GlEntry>, j: int)
    requires 0 <= j < |gle|
    requires gle[j].account in ctx.tdsAccounts && gle[j].credit != gle[j].debit
    ensures EntryRow(ctx, gle[j].voucherNo, gle[j]).Some?
    ensures EntryRow(ctx, gle[j].voucherNo, gle[j]).value in GetResult(ctx, gle)
  {
    ResultIsSortedPermutation(ctx, gle);
    CollectHas(gle, RowFn(ctx), j);
    assert RowFn(ctx)(gle[j]) == EntryRow(ctx, gle[j].voucherNo, gle[j]);
    var row := EntryRow(ctx, gle[j].voucherNo, gle[j]).value;
    assert row in multiset(Collect(gle, RowFn(ctx)));
  }

  lemma {:induction false} CollectHas<T, R>(xs: seq<T>, f: T -> Option<R>, j: int)
    requires 0 <= j < |xs| && f(xs[j]).Some?
    ensures f(xs[j]).value in Collect(xs, f)
    decreases |xs|
  {
    if j > 0 {
      CollectHas(xs[1..], f, j - 1);
      assert xs[1..][j - 1] == xs[j];
    }
  }

  /** Tuple `i` is the last one whose tax withheld equals `tax`. */
  ghost predicate LastMatch(ts: seq<DetailTuple>, tax: real, i: int)
    requires 0 <= i < |ts|
  {
    ts[i].taxWithheld == tax && forall j :: i < j < |ts| ==> ts[j].taxWithheld != tax
  }

  /** When no tuple's tax withheld equals the entry's tax, the loop leaves the figures alone. */
  lemma {:induction false} NoMatchingTupleKeepsFigures(ts: seq<DetailTuple>, tax: real, rates: map<string, real>, init: Figures)
    requires forall i :: 0 <= i < |ts| ==> ts[i].taxWithheld != tax
    ensures MatchTuples(ts, tax, rates, init) == init
    decreases |ts|
  {
    if |ts| > 0 {
      var n := |ts| - 1;
      assert forall i :: 0 <= i < n ==> ts[..n][i].taxWithheld != tax;
      NoMatchingTupleKeepsFigures(ts[..n], tax, rates, init);
    }
  }

  /**
   * The loop over a Purchase Invoice's tuples ends with the figures of the
   * last tuple whose tax withheld equals the entry's tax.
   */
  lemma {:induction false} LastMatchingTupleWins(ts: seq<DetailTuple>, tax: real, rates: map<string, real>, init: Figures, i: int)
    requires 0 <= i < |ts| && LastMatch(ts, tax, i)
    ensures MatchTuples(ts, tax, rates, init) ==
      Figures(ts[i].category, RateFor(rates, ts[i].category), ts[i].netAmount, ts[i].billNo, ts[i].billDate)
    decreases |ts|
  {
    var n := |ts| - 1;
    if i < n {
      assert ts[..n][i] == ts[i];
      assert LastMatch(ts[..n], tax, i);
      LastMatchingTupleWins(ts[..n], tax, rates, init, i);
    }
  }

  /**
   * For a journal entry with a rate, the amount reported is the tax grossed
   * up at the rate, but never more than the entry's total debit.
   */
  lemma JournalTotalCapped(ctx: ReportContext, name: string, e: GlEntry)
    requires e.voucherType == JournalEntryType
    requires EntryRow(ctx, name, e).Some?
    requires HasNetTotal(ctx, name, e)
    requires EntryRow(ctx, name, e).value.rate.Some? && EntryRow(ctx, name, e).value.rate.value != 0.0
    ensures var row := EntryRow(ctx, name, e).value;
      row.totalAmount <= ctx.docs.otherTotals[(e.voucherType, name)][0] &&
      row.totalAmount <= row.taxAmount / (row.rate.value / 100.0)
    ensures var row := EntryRow(ctx, name, e).value;
      row.totalAmount == row.taxAmount / (row.rate.value / 100.0) ||
      row.totalAmount == ctx.docs.otherTotals[(e.voucherType, name)][0]
  {
  }

  /**
   * Outside Purchase Invoices the section code is the account's category
   * whenever the account belongs to that one category only.
   */
  lemma SingleCategoryAccountSetsSection(ctx: ReportContext, name: string, e: GlEntry, c: string)
    requires e.voucherType != PurchaseInvoiceType
    requires e.account in ctx.tdsAccounts && ctx.tdsAccounts[e.account] == Some(c) && c != ""
    requires e.credit != e.debit
    ensures EntryRow(ctx, name, e).Some?
    ensures EntryRow(ctx, name, e).value.sectionCode == c
    ensures EntryRow(ctx, name, e).value.rate == RateFor(ctx.rates, c)
  {
  }

  /**
   * The party an entry is reported under: the entry's party, else its
   * "against" account; for a journal entry, the party of its first party row
   * takes precedence when there is one.
   */
  lemma EntryPartyRule(ctx: ReportContext, rows: seq<JeAccountRow>, name: string, e: GlEntry)
    requires ctx.journalParties == JournalPartyMap(rows)
    ensures e.voucherType == JournalEntryType && FirstWithKey(rows, ParentOf, name).Some? ==>
      EntryParty(ctx, name, e) == FirstWithKey(rows, ParentOf, name).value.party
    ensures e.voucherType != JournalEntryType || FirstWithKey(rows, ParentOf, name).None? ==>
      EntryParty(ctx, name, e) == (if e.party != "" then e.party else e.against)
  {
    JournalPartyIsFirstRow(rows, name);
  }

  /**
   * Second step of the section fallback: an account shared by several
   * categories defers to the category recorded on the voucher.
   */
  lemma SharedAccountUsesVoucherCategory(ctx: ReportContext, name: string, e: GlEntry, c: string)
    requires !(e.voucherType == PurchaseInvoiceType && HasNetTotal(ctx, name, e))
    requires e.account in ctx.tdsAccounts && ctx.tdsAccounts[e.account].None?
    requires (e.voucherType, name) in ctx.docs.categories && ctx.docs.categories[(e.voucherType, name)] == c && c != ""
    requires e.credit != e.debit
    ensures EntryRow(ctx, name, e).Some?
    ensures EntryRow(ctx, name, e).value.sectionCode == c
  {
  }

  /**
   * Last step of the section fallback: with a shared account and no
   * category on the voucher, the party's default category is used.
   */
  lemma PartyDefaultIsLastResort(ctx: ReportContext, name: string, e: GlEntry)
    requires !(e.voucherType == PurchaseInvoiceType && HasNetTotal(ctx, name, e))
    requires e.account in ctx.tdsAccounts && ctx.tdsAccounts[e.account].None?
    requires (e.voucherType, name) !in ctx.docs.categories || ctx.docs.categories[(e.voucherType, name)] == ""
    requires EntryParty(ctx, name, e) in ctx.parties
    requires e.credit != e.debit
    ensures EntryRow(ctx, name, e).Some?
    ensures EntryRow(ctx, name, e).value.sectionCode == ctx.parties[EntryParty(ctx, name, e)].category
  {
  }

  /**
   * A Purchase Invoice entry takes category, rate, total and bill reference
   * from the last tuple of the invoice whose tax withheld equals the entry's
   * tax.
   */
  lemma InvoiceRowFromLastMatchingTuple(ctx: ReportContext, name: string, e: GlEntry, i: int)
    requires e.voucherType == PurchaseInvoiceType && HasNetTotal(ctx, name, e)
    requires EntryRow(ctx, name, e).Some?
    requires 0 <= i < |ctx.docs.invoiceTotals[name]|
    requires LastMatch(ctx.docs.invoiceTotals[name], e.credit - e.debit, i)
    ensures var row := EntryRow(ctx, name, e).value;
      var v := ctx.docs.invoiceTotals[name][i];
      row.sectionCode == v.category && row.rate == RateFor(ctx.rates, v.category) &&
      row.totalAmount == v.netAmount && row.billNo == v.billNo && row.billDate == v.billDate
  {
    var party := EntryParty(ctx, name, e);
    var category := InferredCategory(ctx, name, e, party);
    var init := Figures(category, RateFor(ctx.rates, category), 0.0, "", "");
    LastMatchingTupleWins(ctx.docs.invoiceTotals[name], 0.0 + (e.credit - e.debit), ctx.rates, init, i);
  }

  /**
   * An entry of a voucher without a net-total list is reported on its own
   * credit.
   */
  lemma NoNetTotalUsesCredit(ctx: ReportContext, name: string, e: GlEntry)
    requires !HasNetTotal(ctx, name, e)
    requires EntryRow(ctx, name, e).Some?
    ensures EntryRow(ctx, name, e).value.totalAmount == e.credit
    ensures EntryRow(ctx, name, e).value.billNo == ""
  {
  }

  /**
   * A Sales Invoice, Payment Entry or Journal Entry without a rate is
   * reported on the single amount its document stands for (base total,
   * base paid amount, total debit).
   */
  lemma OtherTotalIsDocumentAmount(d: SourceDoc)
    requires !d.PurchaseInvoiceDoc?
    ensures OtherTotal(OtherAmounts(d)) == DocAmount(d)
  {
  }

  /**
   * As written, the total of every Sales Invoice, Payment Entry or Journal
   * Entry reported through the last branch is a list, never a number, and it
   * differs from the corrected amount in kind only: its first element is it.
   */
  lemma AsWrittenTotalIsNeverANumber(d: SourceDoc)
    requires !d.PurchaseInvoiceDoc?
    ensures !OtherTotalAsWritten(OtherAmounts(d)).Amount?
    ensures OtherTotalAsWritten(OtherAmounts(d)).values[0] == OtherTotal(OtherAmounts(d))
  {
  }

  /**
   * As written, a Sales Invoice whose base total is 1000 gets the list
   * [1000.0] as its total amount, where an amount is expected.
   */
  lemma TotalAmountIsAListAsWritten()
    ensures var info := GetDocInfo([SalesInvoiceDoc("SINV-1", 1000.0)]);
      (SalesInvoiceType, "SINV-1") in info.otherTotals &&
      OtherTotalAsWritten(info.otherTotals[(SalesInvoiceType, "SINV-1")]) == AmountList([1000.0]) &&
      !OtherTotalAsWritten(info.otherTotals[(SalesInvoiceType, "SINV-1")]).Amount?
    ensures OtherTotal(GetDocInfo([SalesInvoiceDoc("SINV-1", 1000.0)]).otherTotals[(SalesInvoiceType, "SINV-1")]) == 1000.0
  {
    var docs := [SalesInvoiceDoc("SINV-1", 1000.0)];
    assert docs[..0] == [];
  }
}

=== FILE: text_order.dfy ===
/**
 * Python's ordering of strings (lexicographic by code point, a proper prefix
 * first) and the stable `list.sort(key=...)` the report applies to its rows.
 */
module TextOrder {

  /** `a <= b` as Python compares two `str` values. */
  predicate StrLe(a: string, b: string)
    decreases |a|
  {
    |a| == 0 || (|b| > 0 && (a[0] < b[0] || (a[0] == b[0] && StrLe(a[1..], b[1..]))))
  }

  /** `a < b` as Python compares two `str` values. */
  predicate StrLt(a: string, b: string)
    decreases |a|
  {
    |b| > 0 && (|a| == 0 || a[0] < b[0] || (a[0] == b[0] && StrLt(a[1..], b[1..])))
  }

  /** Strict order is the complement of the reversed non-strict one. */
  lemma {:induction false} StrLtIsNotGe(a: string, b: string)
    ensures StrLt(a, b) <==> !StrLe(b, a)
    decreases |a|
  {
    if |a| > 0 && |b| > 0 && a[0] == b[0] {
      StrLtIsNotGe(a[1..], b[1..]);
    }
  }

  lemma {:induction false} StrLeReflexive(a: string)
    ensures StrLe(a, a)
    decreases |a|
  {
    if |a| > 0 {
      StrLeReflexive(a[1..]);
    }
  }

  lemma {:induction false} StrLeTotal(a: string, b: string)
    ensures StrLe(a, b) || StrLe(b, a)
    decreases |a|
  {
    if |a| > 0 && |b| > 0 && a[0] == b[0] {
      StrLeTotal(a[1..], b[1..]);
    }
  }

  lemma {:induction false} StrLeAntisymmetric(a: string, b: string)
    requires StrLe(a, b) && StrLe(b, a)
    ensures a == b
    decreases |a|
  {
    if |a| > 0 {
      StrLeAntisymmetric(a[1..], b[1..]);
      assert a == [a[0]] + a[1..];
      assert b == [b[0]] + b[1..];
    }
  }

  lemma {:induction false} StrLeTransitive(a: string, b: string, c: string)
    requires StrLe(a, b) && StrLe(b, c)
    ensures StrLe(a, c)
    decreases |a|
  {
    if |a| > 0 && a[0] == b[0] && b[0] == c[0] {
      StrLeTransitive(a[1..], b[1..], c[1..]);
    }
  }

  /** Every pair of rows is in non-decreasing key order. */
  ghost predicate SortedByKey<T>(s: seq<T>, key: T -> string) {
    forall i, j :: 0 <= i < j < |s| ==> StrLe(key(s[i]), key(s[j]))
  }

  /** The elements of `s` whose key is `k`, in order. */
  function WithKey<T>(s: seq<T>, key: T -> string, k: string): seq<T>
    decreases |s|
  {
    if |s| == 0 then []
    else (if key(s[0]) == k then [s[0]] else []) + WithKey(s[1..], key, k)
  }

  /** Inserts `x` before the first element whose key is not smaller than its own. */
  function InsertByKey<T>(x: T, s: seq<T>, key: T -> string): seq<T>
    decreases |s|
  {
    if |s| == 0 then [x]
    else if StrLe(key(x), key(s[0])) then [x] + s
    else [s[0]] + InsertByKey(x, s[1..], key)
  }

  /**
   * Python's stable `list.sort(key=key)`: the result is ordered by key, is a
   * permutation of the input, and keeps rows with equal keys in input order.
   */
  function SortByKey<T(==)>(xs: seq<T>, key: T -> string): (r: seq<T>)
    ensures SortedByKey(r, key)
    ensures multiset(r) == multiset(xs)
    ensures forall k :: WithKey(r, key, k) == WithKey(xs, key, k)
    decreases |xs|
  {
    if |xs| == 0 then []
    else
      var rest := SortByKey(xs[1..], key);
      InsertSorted(xs[0], rest, key);
      InsertPermutes(xs[0], rest, key);
      InsertStable(xs[0], rest, key);
      WithKeyCons(xs, key);
      InsertByKey(xs[0], rest, key)
  }

  /** Splitting off the first element splits every key's subsequence the same way. */
  lemma WithKeyCons<T>(xs: seq<T>, key: T -> string)
    requires |xs| > 0
    ensures multiset(xs) == multiset([xs[0]]) + multiset(xs[1..])
    ensures forall k :: WithKey(xs, key, k) == WithKey([xs[0]], key, k) + WithKey(xs[1..], key, k)
  {
    assert xs == [xs[0]] + xs[1..];
    forall k
      ensures WithKey(xs, key, k) == WithKey([xs[0]], key, k) + WithKey(xs[1..], key, k)
    {
      assert [xs[0]][1..] == [];
      assert WithKey([xs[0]], key, k) == (if key(xs[0]) == k then [xs[0]] else []) + WithKey([xs[0]][1..], key, k);
    }
  }

  /** Inserting adds exactly `x` to the elements. */
  lemma {:induction false} InsertPermutes<T>(x: T, s: seq<T>, key: T -> string)
    ensures multiset(InsertByKey(x, s, key)) == multiset(s) + multiset{x}
    decreases |s|
  {
    if |s| > 0 && !StrLe(key(x), key(s[0])) {
      InsertPermutes(x, s[1..], key);
      assert s == [s[0]] + s[1..];
    }
  }

  /** Every element of the insertion is `x` or an element of `s`. */
  lemma {:induction false} InsertMembers<T>(x: T, s: seq<T>, key: T -> string, j: int)
    requires 0 <= j < |InsertByKey(x, s, key)|
    ensures InsertByKey(x, s, key)[j] == x || InsertByKey(x, s, key)[j] in s
    decreases |s|
  {
    if |s| > 0 && !StrLe(key(x), key(s[0])) && j > 0 {
      InsertMembers(x, s[1..], key, j - 1);
    }
  }

  lemma {:induction false} InsertSorted<T>(x: T, s: seq<T>, key: T -> string)
    requires SortedByKey(s, key)
    ensures SortedByKey(InsertByKey(x, s, key), key)
    decreases |s|
  {
    var r := InsertByKey(x, s, key);
    if |s| == 0 {
    } else if StrLe(key(x), key(s[0])) {
      forall i, j | 0 <= i < j < |r|
        ensures StrLe(key(r[i]), key(r[j]))
      {
        if i == 0 && j > 1 {
          StrLeTransitive(key(x), key(s[0]), key(s[j - 1]));
        }
      }
    } else {
      StrLeTotal(key(x), key(s[0]));
      var tail := InsertByKey(x, s[1..], key);
      InsertSorted(x, s[1..], key);
      forall j | 0 <= j < |tail|
        ensures StrLe(key(s[0]), key(tail[j]))
      {
        InsertMembers(x, s[1..], key, j);
        if tail[j] != x {
          var m :| 0 <= m < |s[1..]| && s[1..][m] == tail[j];
          assert s[m + 1] == tail[j];
        }
      }
      forall i, j | 0 <= i < j < |r|
        ensures StrLe(key(r[i]), key(r[j]))
      {
        if i == 0 {
          assert r[j] == tail[j - 1];
        } else {
          assert r[i] == tail[i - 1] && r[j] == tail[j - 1];
        }
      }
    }
  }

  lemma {:induction false} InsertStable<T>(x: T, s: seq<T>, key: T -> string)
    ensures forall k :: WithKey(InsertByKey(x, s, key), key, k)
                     == WithKey([x], key, k) + WithKey(s, key, k)
    decreases |s|
  {
    var r := InsertByKey(x, s, key);
    if |s| == 0 {
    } else if StrLe(key(x), key(s[0])) {
      forall k
        ensures WithKey(r, key, k) == WithKey([x], key, k) + WithKey(s, key, k)
      {
        assert r[1..] == s;
      }
    } else {
      StrLeReflexive(key(x));
      InsertStable(x, s[1..], key);
      var tail := InsertByKey(x, s[1..], key);
      assert r[1..] == tail;
      forall k
        ensures WithKey(r, key, k) == WithKey([x], key, k) + WithKey(s, key, k)
      {
        assert WithKey(r, key, k) == (if key(s[0]) == k then [s[0]] else []) + WithKey(tail, key, k);
        assert WithKey(s, key, k) == (if key(s[0]) == k then [s[0]] else []) + WithKey(s[1..], key, k);
        assert key(s[0]) != key(x);
      }
    }
  }
}

=== FILE: withholding.dfy ===
/**
 * The amount of tax to withhold on one invoice for one Tax Withholding
 * Category (`get_tax_amount` and `get_tds_amount`).
 *
 * Database reads become the fields of `LedgerFacts`; the host ERP's helpers
 * (deducted-tax lookup, certificate validity, lower-deduction amount,
 * rounding, tax-row construction) are the uninterpreted functions of `Host`.
 */
module TaxWithholding {
  import opened Wrappers
  import opened Money
  import opened AdvanceAllocation

  /** The category's settings for the invoice's fiscal period. */
  datatype TaxDetails = TaxDetails(
    category: string,
    accountHead: string,
    rate: real,
    threshold: real,                 // 0 when not set
    cumulativeThreshold: real,       // 0 when not set
    taxOnExcessAmount: bool,
    considerPartyLedgerAmount: bool,
    roundOffTaxAmount: bool)

  /** A Lower Deduction Certificate. */
  datatype Certificate = Certificate(certificateLimit: real, rate: real)

  /** A row of the invoice's "taxes" table (Purchase Taxes and Charges). */
  datatype TaxRow = TaxRow(accountHead: string, taxAmount: real, description: string, costCenter: string)

  /** An entry of the voucher-wise taxable amounts. */
  datatype VoucherAmount = VoucherAmount(voucherName: string, voucherType: string, amount: real)

  /** Helpers of the host ERP whose code is not part of this model. */
  datatype Host = Host(
    deductedTax: (seq<string>, TaxDetails) -> real,
    isValidCertificate: (Certificate, string, real) -> bool,
    lowerDeductionAmount: (real, real, real, real, TaxDetails) -> real,
    normalRound: real -> real,
    taxRowFor: TaxDetails -> TaxRow)   // account head and description of the category's tax row

  /** The document on which tax is computed. */
  datatype TdsVoucher = TdsVoucher(
    doctype: string,
    itemWiseTds: bool,
    taxWithholdingNetTotal: real,
    baseTaxWithholdingNetTotal: real,
    postingDate: string)              // posting date, else transaction date

  /** A Journal Entry Account line of the party in the period. */
  datatype JvLine = JvLine(credit: real, debit: real)

  /** Unallocated Payment Entry amounts of the party, summed per payment type. */
  datatype PaymentGroup = PaymentGroup(paymentType: string, amount: real)

  /** What the database says about the party and the category in the period. */
  datatype LedgerFacts = LedgerFacts(
    vouchers: seq<string>,             // earlier invoices and journal entries
    advanceVouchers: seq<string>,
    voucherWise: seq<VoucherAmount>,
    priorNetTotal: real,               // sum of tax_withholding_net_total of the earlier invoices
    priorGrandTotal: real,             // sum of grand_total of the earlier invoices
    priorItemWiseNet: real,            // sum of their item-wise withholding detail net amounts
    jvLines: seq<JvLine>,
    payments: seq<PaymentGroup>,
    certificate: Option<Certificate>,
    limitConsumed: real,
    advanceTaxes: seq<AdvanceTax>)

  datatype TaxAmountResult = TaxAmountResult(
    taxAmount: real,
    advances: seq<AdvanceTax>,
    voucherWise: seq<VoucherAmount>)

  const Supplier := "Supplier"
  const PurchaseInvoiceType := "Purchase Invoice"
  const PaymentEntryType := "Payment Entry"
  const Pay := "Pay"

  // ---------------------------------------------------------------------
  // Building blocks
  // ---------------------------------------------------------------------

  function AtRate(amount: real, rate: real): real {
    amount * rate / 100.0
  }

  /** Tax already deducted on the period's vouchers; none are looked up when there are none. */
  function TaxDeducted(host: Host, td: TaxDetails, facts: LedgerFacts): real {
    var taxable := facts.vouchers + facts.advanceVouchers;
    if |taxable| > 0 then host.deductedTax(taxable, td) else 0.0
  }

  /** The current invoice's amount: the category's item total, or the invoice's withholding net total. */
  function CurrentNetTotal(inv: TdsVoucher, netAmount: real): real {
    if inv.itemWiseTds then netAmount else inv.taxWithholdingNetTotal
  }

  /** A certificate exists and the host deems it valid for the date and the consumed limit. */
  predicate CertificateApplies(host: Host, facts: LedgerFacts, date: string, consumed: real) {
    facts.certificate.Some? && host.isValidCertificate(facts.certificate.value, date, consumed)
  }

  function MaybeRound(host: Host, td: TaxDetails, amount: real): real {
    if td.roundOffTaxAmount then host.normalRound(amount) else amount
  }

  function JvLineNet(l: JvLine): real {
    l.credit - l.debit
  }

  /** The payment groups folded in order: "Pay" adds, every other type subtracts. */
  function SignedPayments(gs: seq<PaymentGroup>): real
    decreases |gs|
  {
    if |gs| == 0 then 0.0
    else
      var g := gs[|gs| - 1];
      SignedPayments(gs[..|gs| - 1]) + (if g.paymentType == Pay then g.amount else -g.amount)
  }

  /** Earlier invoices: grand totals when the party ledger is considered, else net totals plus item-wise details. */
  function PriorCredit(td: TaxDetails, facts: LedgerFacts): real {
    if td.considerPartyLedgerAmount then facts.priorGrandTotal
    else facts.priorNetTotal + facts.priorItemWiseNet
  }

  /** The cumulative amount credited to the party in the period, this invoice included. */
  function SupplierCredit(inv: TdsVoucher, td: TaxDetails, facts: LedgerFacts, netAmount: real): real {
    PriorCredit(td, facts) + SumBy(facts.jvLines, JvLineNet) + CurrentNetTotal(inv, netAmount)
      + SignedPayments(facts.payments)
  }

  /** The amount compared with the single-transaction threshold and taxed at the rate. */
  function ThresholdNetTotal(inv: TdsVoucher, netAmount: real): real {
    if inv.doctype != PaymentEntryType then
      (if inv.itemWiseTds then netAmount else inv.baseTaxWithholdingNetTotal)
    else inv.taxWithholdingNetTotal
  }

  predicate SingleThresholdMet(td: TaxDetails, net: real) {
    td.threshold != 0.0 && net >= td.threshold
  }

  predicate CumulativeThresholdMet(td: TaxDetails, credit: real) {
    td.cumulativeThreshold != 0.0 && credit >= td.cumulativeThreshold
  }

  predicate ThresholdBreached(inv: TdsVoucher, td: TaxDetails, facts: LedgerFacts, netAmount: real) {
    SingleThresholdMet(td, ThresholdNetTotal(inv, netAmount))
    || CumulativeThresholdMet(td, SupplierCredit(inv, td, facts, netAmount))
  }

  /** The period's net totals, this invoice included, used for tax on the excess. */
  function ExcessNetTotal(inv: TdsVoucher, td: TaxDetails, facts: LedgerFacts, netAmount: real): real {
    facts.priorNetTotal + (if td.considerPartyLedgerAmount then 0.0 else facts.priorItemWiseNet)
      + CurrentNetTotal(inv, netAmount)
  }

  /** The credit after the tax-on-excess adjustment. */
  function EffectiveCredit(inv: TdsVoucher, td: TaxDetails, facts: LedgerFacts, netAmount: real): real {
    var credit := SupplierCredit(inv, td, facts, netAmount);
    if CumulativeThresholdMet(td, credit) && td.taxOnExcessAmount
    then ExcessNetTotal(inv, td, facts, netAmount) - td.cumulativeThreshold
    else credit
  }

  // ---------------------------------------------------------------------
  // get_tds_amount and get_tax_amount
  // ---------------------------------------------------------------------

  /**
   * Tax on an invoice when nothing was deducted yet in the period: nothing
   * until a threshold is breached; then the certificate's lower deduction when
   * one applies, else the rate on the invoice's net total provided the
   * (possibly excess-adjusted) credit is positive.
   */
  function TdsAmount(host: Host, inv: TdsVoucher, td: TaxDetails, facts: LedgerFacts, netAmount: real): (r: real)
    ensures !ThresholdBreached(inv, td, facts, netAmount) ==> r == 0.0
    ensures !CertificateApplies(host, facts, inv.postingDate, 0.0) ==>
      (r == 0.0 || r == AtRate(ThresholdNetTotal(inv, netAmount), td.rate))
    ensures ThresholdBreached(inv, td, facts, netAmount) && !CertificateApplies(host, facts, inv.postingDate, 0.0) ==>
      r == (if EffectiveCredit(inv, td, facts, netAmount) > 0.0 then AtRate(ThresholdNetTotal(inv, netAmount), td.rate) else 0.0)
  {
    if ThresholdBreached(inv, td, facts, netAmount) then
      var effective := EffectiveCredit(inv, td, facts, netAmount);
      if CertificateApplies(host, facts, inv.postingDate, 0.0) then
        var ldc := facts.certificate.value;
        host.lowerDeductionAmount(effective, 0.0, ldc.certificateLimit, ldc.rate, td)
      else if effective > 0.0 then AtRate(ThresholdNetTotal(inv, netAmount), td.rate)
      else 0.0
    else 0.0
  }

  /** Tax on an invoice when tax was already deducted in the period: the flat rate, or the certificate's lower deduction. */
  function DeductedPeriodTax(host: Host, inv: TdsVoucher, td: TaxDetails, facts: LedgerFacts, netAmount: real): real {
    var net := CurrentNetTotal(inv, netAmount);
    if CertificateApplies(host, facts, inv.postingDate, facts.limitConsumed) then
      var ldc := facts.certificate.value;
      host.lowerDeductionAmount(net, facts.limitConsumed, ldc.certificateLimit, ldc.rate, td)
    else AtRate(net, td.rate)
  }

  /** The tax before optional rounding. */
  function UnroundedTaxAmount(host: Host, partyType: string, inv: TdsVoucher, td: TaxDetails,
                              facts: LedgerFacts, netAmount: real): real
  {
    if partyType != Supplier then 0.0
    else if TaxDeducted(host, td, facts) != 0.0 then DeductedPeriodTax(host, inv, td, facts, netAmount)
    else TdsAmount(host, inv, td, facts, netAmount)
  }

  /**
   * `get_tax_amount`: the (optionally rounded) tax, the advances whose tax may
   * be set off (Purchase Invoices only), and the voucher-wise amounts, emptied
   * once tax has been deducted in the period.
   */
  function TaxAmount(host: Host, partyType: string, inv: TdsVoucher, td: TaxDetails,
                     facts: LedgerFacts, netAmount: real): (r: TaxAmountResult)
    ensures partyType != Supplier ==> r.taxAmount == MaybeRound(host, td, 0.0)
    ensures partyType == Supplier && TaxDeducted(host, td, facts) != 0.0 ==>
      r.voucherWise == [] &&
      (!CertificateApplies(host, facts, inv.postingDate, facts.limitConsumed) ==>
        r.taxAmount == MaybeRound(host, td, AtRate(CurrentNetTotal(inv, netAmount), td.rate)))
    ensures partyType == Supplier && TaxDeducted(host, td, facts) == 0.0 ==>
      r.taxAmount == MaybeRound(host, td, TdsAmount(host, inv, td, facts, netAmount))
    ensures (partyType != Supplier || TaxDeducted(host, td, facts) == 0.0) ==> r.voucherWise == facts.voucherWise
    ensures r.advances == (if inv.doctype == PurchaseInvoiceType then facts.advanceTaxes else [])
  {
    var amount := UnroundedTaxAmount(host, partyType, inv, td, facts, netAmount);
    var deducted := partyType == Supplier && TaxDeducted(host, td, facts) != 0.0;
    TaxAmountResult(
      MaybeRound(host, td, amount),
      if inv.doctype == PurchaseInvoiceType then facts.advanceTaxes else [],
      if deducted then [] else facts.voucherWise)
  }

  // ---------------------------------------------------------------------
  // Properties
  // ---------------------------------------------------------------------

  function PayAmount(g: PaymentGroup): real {
    if g.paymentType == Pay then g.amount else 0.0
  }

  function OtherAmount(g: PaymentGroup): real {
    if g.paymentType == Pay then 0.0 else g.amount
  }

  function Credit(l: JvLine): real {
    l.credit
  }

  function Debit(l: JvLine): real {
    l.debit
  }

  lemma {:induction false} SignedPaymentsSplit(gs: seq<PaymentGroup>)
    ensures SignedPayments(gs) == SumBy(gs, PayAmount) - SumBy(gs, OtherAmount)
    decreases |gs|
  {
    if |gs| > 0 {
      SignedPaymentsSplit(gs[..|gs| - 1]);
    }
  }

  lemma {:induction false} JvNetSplit(lines: seq<JvLine>)
    ensures SumBy(lines, JvLineNet) == SumBy(lines, Credit) - SumBy(lines, Debit)
    decreases |lines|
  {
    if |lines| > 0 {
      JvNetSplit(lines[..|lines| - 1]);
    }
  }

  /**
   * The cumulative credit is the earlier invoices' totals, plus journal
   * credits minus debits, plus this invoice, plus "Pay" payments, minus the
   * payments of every other type.
   */
  lemma SupplierCreditDecomposes(inv: TdsVoucher, td: TaxDetails, facts: LedgerFacts, netAmount: real)
    ensures SupplierCredit(inv, td, facts, netAmount)
         == PriorCredit(td, facts)
          + SumBy(facts.jvLines, Credit) - SumBy(facts.jvLines, Debit)
          + CurrentNetTotal(inv, netAmount)
          + SumBy(facts.payments, PayAmount) - SumBy(facts.payments, OtherAmount)
  {
    SignedPaymentsSplit(facts.payments);
    JvNetSplit(facts.jvLines);
  }

  /** A category with neither threshold set never withholds on this path. */
  lemma NoThresholdsNoTds(host: Host, inv: TdsVoucher, td: TaxDetails, facts: LedgerFacts, netAmount: real)
    requires td.threshold == 0.0 && td.cumulativeThreshold == 0.0
    ensures TdsAmount(host, inv, td, facts, netAmount) == 0.0
  {
  }

  /**
   * With tax on the excess, no valid certificate and a cumulative breach, no
   * tax is due while the period's net totals have not passed the cumulative
   * threshold.
   */
  lemma ExcessNotReachedNoTds(host: Host, inv: TdsVoucher, td: TaxDetails, facts: LedgerFacts, netAmount: real)
    requires td.taxOnExcessAmount
    requires CumulativeThresholdMet(td, SupplierCredit(inv, td, facts, netAmount))
    requires !CertificateApplies(host, facts, inv.postingDate, 0.0)
    requires ExcessNetTotal(inv, td, facts, netAmount) <= td.cumulativeThreshold
    ensures TdsAmount(host, inv, td, facts, netAmount) == 0.0
  {
  }

  /**
   * Without a valid certificate and with a non-negative rate and net total,
   * the tax lies between nothing and the rate applied to the net total.
   */
  lemma TdsBounded(host: Host, inv: TdsVoucher, td: TaxDetails, facts: LedgerFacts, netAmount: real)
    requires !CertificateApplies(host, facts, inv.postingDate, 0.0)
    requires td.rate >= 0.0 && ThresholdNetTotal(inv, netAmount) >= 0.0
    ensures 0.0 <= TdsAmount(host, inv, td, facts, netAmount) <= AtRate(ThresholdNetTotal(inv, netAmount), td.rate)
  {
    var net := ThresholdNetTotal(inv, netAmount);
    assert net * td.rate >= 0.0;
  }

  /**
   * Once tax has been deducted in the period and no certificate applies, the
   * thresholds, the tax-on-excess flag and the party's journal and payment
   * history no longer matter: changing any of them leaves the tax as it was.
   */
  lemma DeductedTaxIgnoresThresholds(host: Host, inv: TdsVoucher, td: TaxDetails, facts: LedgerFacts,
                                     netAmount: real, threshold: real, cumulative: real, excess: bool,
                                     jvLines: seq<JvLine>, payments: seq<PaymentGroup>)
    requires TaxDeducted(host, td, facts) != 0.0
    requires !CertificateApplies(host, facts, inv.postingDate, facts.limitConsumed)
    ensures var td' := td.(threshold := threshold, cumulativeThreshold := cumulative, taxOnExcessAmount := excess);
      var facts' := facts.(jvLines := jvLines, payments := payments);
      TaxDeducted(host, td', facts') != 0.0 ==>
        TaxAmount(host, Supplier, inv, td', facts', netAmount).taxAmount
          == TaxAmount(host, Supplier, inv, td, facts, netAmount).taxAmount
  {
  }
}

=== FILE: wrappers.dfy ===
/** Optional values and error-carrying results used across the model. */
module Wrappers {

  /** A value that may be absent: the model's stand-in for Python's None. */
  datatype Option<+T> = None | Some(value: T) {
    function GetOr(default: T): T {
      match this
      case Some(v) => v
      case None => default
    }
  }

  /** Either a computed value or the error a `frappe.throw` would raise. */
  datatype Result<+T, +E> = Ok(value: T) | Err(error: E)
}
